=== FILE: README.md ===
# FlexTaxD tree modification, modelled in Dafny

FlexTaxD keeps a taxonomy as a tree in a store: named nodes with integer
ids, `(parent, child, rank)` links, and genome annotations that point a
genome id at a node. This project models the merge engine of
`flextaxd/modules/ModifyTree.py`, which grafts a second taxonomy (another
store, or a flat parent/child file) below an anchor node, and the row-level
readers of `flextaxd/modules/ReadTaxonomyNCBI.py`, which load the NCBI
`nodes.dmp`, `names.dmp` and `accession2taxid` files.

The modules follow the program:

- `Results` holds the option and result types, one error constructor per
  Python exception the code raises (`InputError`, `TreeError`, `TypeError`,
  `ValueError`, `IndexError`, `KeyError`, `AttributeError`, and `Exit` for
  the `exit()` in `database_mod`), and two sequence helpers.
- `Text` holds the Python string operations the parsers use: `strip`,
  `lstrip`/`rstrip`/`strip(chars)`, `split`, `lower`, `endswith` and `int()`.
- `Store` is the SQLite backend as the merge engine sees it. The backend
  class is not part of this model, so each query it answers gets a short
  definition here: node table, tree rows in insertion order, genome table,
  rank table, and two id counters.
- `Registry` is the state a `ModifyTree` object keeps between calls, and
  its allocator: `_taxfix`, `add_node`, `add_rank`, `get_id`.
- `Reconcile` reads a modification source into the primary store's ids:
  `_parse_new_links`, `file_mod`, `database_mod` and `add_link`.
- `Diff` is `parse_modification` and the source dispatch of the constructor.
- `Apply` is `update_database`, `update_genomes` and `update_annotations`.
- `Clean` is `clean_database`.
- `Ncbi` is the row logic of `read_nodes`, `read_names`,
  `parse_genebank_file` and `parse_genomeid2taxid`.

Every operation is a pure function from the object's state and its inputs
to a `Result`; `update_database` is a method because the backend's
`add_links` inserts a set's rows in an order the model does not fix.

## Quirks of the source

The model follows the code as written in these places, and a lemma or
contract shows each.

- Replace mode removes the non-overlapping links only behind the guard
  `self.replace & len(self.existing_nodes) > 0` (ModifyTree.py:266).
  Python binds `&` tighter than `>`, so the guard holds only when the
  subtree has an odd number of nodes (`Diff.OddGate`, `Diff.NonOverlapping`).
- The deletions subtract `set(self.parent_link)` (ModifyTree.py:416-418),
  which is the set of the triple's three elements, not a set holding the
  link, so nothing is removed (`Apply.MinusParentLink`).
- `self.rank` starts as the backend's name-to-code table
  (`get_rank(col=2)`, ModifyTree.py:73), and `add_rank` binds a rank it
  has not seen in both directions (ModifyTree.py:139-140). `file_mod` turns
  a row's rank name into its code (ModifyTree.py:225-227), and
  `_parse_new_links` passes that code to `add_rank` again
  (ModifyTree.py:165). For a rank first seen during the run the code is a
  key that maps back to the name, so the stored link carries the rank NAME
  (`Registry.DoubleTranslation`, `Reconcile.StoredRankIsName`). For a rank
  the table held only name-to-code, the code is taken as a new rank and the
  link carries a further fresh code (`Registry.OneWayRank`,
  `Reconcile.StoredRankFresh`). Which ranks the backend's table lists in
  both directions is up to `get_rank`, which is not part of this model.
- A two-column data row gets the rank `"-"` (ModifyTree.py:221-222), not
  `"no rank"`.
- `_parse_new_links` and `add_link` raise only when the child is empty and
  the parent is not (`not child and parent`, ModifyTree.py:158 and :112).
  A row with both names empty is accepted.
- Replace mode clears the genomes of the anchor itself as well as of its
  subtree (ModifyTree.py:410-412, `Apply.ReplaceCleanup`).
- The non-overlapping links are every stored link that touches a node
  which is both existing and new, other than the anchor
  (ModifyTree.py:267), not only links with both ends in that set.
- `read_names` keeps a row whose class field is empty, since `not _type`
  holds for `""` as well as for a missing field (ReadTaxonomyNCBI.py:62-65).
- `parse_genomeid2taxid` compares a `bytes` row with `""`
  (ReadTaxonomyNCBI.py:99), which is never equal. A blank line is therefore
  not skipped, and its unpack raises `ValueError` (`Ncbi.AccessionRow`).
- `filename.strip(".gz")` (ReadTaxonomyNCBI.py:89) removes any of the
  characters `.`, `g` and `z` from both ends; it does not remove a suffix.
  `Ncbi.StemEaten` shows a `.fna` file the selection skips.
- With `ncbi`, `clean_database` keeps the root's children as nodes
  (ModifyTree.py:381-383). The links it keeps are whatever the backend's
  `get_links(annotated_nodes, only_parents=True)` returns
  (ModifyTree.py:385). The backend is not part of this model, which
  assumes that query returns the links whose parent is kept (see "Left
  out"). Under that assumption, an NCBI `nodes.dmp` lists the root as its
  own parent, and `read_nodes` stores that row as the link (1, 1)
  (ReadTaxonomyNCBI.py:45-51). With that link, node 1 is one of the root's
  children and is always kept (`Clean.RootSelfLinkKept`). Without it, node
  1 is kept only when it lies on an annotated lineage, and the links from
  node 1 to the root's children are then removed.
- `clean_database=True` skips the allocator set-up (ModifyTree.py:77-83),
  yet a modification source given alongside is still parsed
  (ModifyTree.py:86-91). The first name the read has not cached reaches
  `add_node`, which reads the missing `taxid_set` (ModifyTree.py:125) and
  raises `AttributeError`; inside `database_mod` the bare `except` turns it
  into `exit()`. `Diff.ParseUnallocated` models that read.

## Model

| member | source | states |
|---|---|---|
| Registry.TaxFix | flextaxd/modules/ModifyTree.py:106-108 | the result is a multiple of one million, at least the input and less than one million above it |
| Registry.Open | flextaxd/modules/ModifyTree.py:72-83 | the allocator base is the rounded-up highest native id (`_taxfix`) and is armed (base equals the set marker); the store, the rank dictionary and the replace flag are the ones given; the name cache is the store's name table; the new-node and new-link sets are empty; with `clean_database` set the allocator fields stand for attributes the source never sets, and no read under that flag reaches them (`Diff.ParseUnallocated`) |
| Registry.AddNode | flextaxd/modules/ModifyTree.py:120-131 | the first call after set-up forces the rounded base as the id and disarms the marker; later calls take the store's next id; the name is recorded in both the taxonomy map and the node table; links, genomes and ranks are untouched |
| Registry.AddRank | flextaxd/modules/ModifyTree.py:133-141 | a known key returns its value unchanged; an unknown key gets the backend's fresh code, bound in both directions; no other entry changes |
| Registry.GetId | flextaxd/modules/ModifyTree.py:143-153 | a cached name returns its id with no change; a new name gets the id `add_node` allocates (the armed base on the first allocation, then the store's next id) and is recorded in the cache, the taxonomy map and the node table; cached entries keep their ids; ranks, links, genomes and the new sets are untouched |
| Registry.GetIdRoundTrip | flextaxd/modules/ModifyTree.py:143-153 | looking a name up again right after `get_id` returns the same id and changes nothing |
| Registry.UnforcedRun | flextaxd/modules/ModifyTree.py:124-129 | once the marker is disarmed, a run of `add_node` calls takes every id from the store's counter, strictly increasing and the marker stays disarmed |
| Registry.AllocationRun | flextaxd/modules/ModifyTree.py:120-131 | from a freshly armed allocator, a run of `add_node` calls gets the base first and then strictly increasing ids, so all are distinct |
| Registry.AddRankKeeps | flextaxd/modules/ModifyTree.py:133-141 | with codes the backend already issued, `add_rank` only adds entries, keeps every existing binding, and keeps the dictionary paired and its codes fresh |
| Registry.DoubleTranslation | flextaxd/modules/ModifyTree.py:133-141 | for a rank whose entry is bound in both directions (every rank first seen during the run), translating the name to its code and passing that code to `add_rank` again gives back the name |
| Registry.OneWayRank | flextaxd/modules/ModifyTree.py:133-141 | for a rank the dictionary holds only name-to-code, the first `add_rank` returns that code unchanged, and passing the code again makes it a new rank with the backend's next code, bound in both directions |
| Reconcile.ParseNewLinks | flextaxd/modules/ModifyTree.py:155-169 | `InputError` exactly when the child is empty and the parent is not; otherwise both names are resolved, both ids join the new nodes, and exactly the one translated triple joins the new links |
| Reconcile.ParseNewLinksKeepsRanks | flextaxd/modules/ModifyTree.py:155-169 | a call keeps every existing rank binding and keeps the codes fresh |
| Reconcile.FileRow | flextaxd/modules/ModifyTree.py:217-231 | a blank row changes nothing; a row succeeds exactly when it has three fields after padding and not an empty child beside a non-empty parent; a wrong field count is `ValueError`, the name check `InputError`; a good row adds its link between the (possibly swapped) names |
| Reconcile.FieldsRow | flextaxd/modules/ModifyTree.py:220-231 | the fields of a non-blank row succeed exactly when there are three of them and not an empty child beside a non-empty parent; a wrong count is `ValueError`, the name check `InputError`; success adds exactly the link between the (possibly swapped) names, with the rank key `add_rank` gave the third field |
| Reconcile.FileRows | flextaxd/modules/ModifyTree.py:217-231 | the rows succeed exactly when every row is accepted; the merge state only grows and every name of every data row is resolved; with codes the backend issued, existing rank bindings are kept, every non-blank row is fully resolved, the new links gain exactly one link per non-blank row and the new nodes exactly both ends of each |
| Reconcile.FileMod | flextaxd/modules/ModifyTree.py:202-232 | an empty separator is `ValueError`; a header without two or three fields led by "parent" or "child" is `InputError`; otherwise the data rows are read, swapped exactly when the header starts with "child" |
| Reconcile.ChildHeaderSwaps | flextaxd/modules/ModifyTree.py:211-231 | under a "child" header the fields of a row link the second column as the parent of the first |
| Reconcile.StoredRankIsName | flextaxd/modules/ModifyTree.py:217-231 | for a rank bound in both directions, the link a data row adds, after its rank name went to a code and back through `add_rank`, carries the rank name itself |
| Reconcile.StoredRankFresh | flextaxd/modules/ModifyTree.py:217-231 | for a rank the dictionary holds only name-to-code, the link a data row adds carries the backend's next rank code, neither the name nor its stored code |
| Reconcile.ForeignLink | flextaxd/modules/ModifyTree.py:180-199 | a self-loop adds the anchor's parent link exactly in replace mode on a node other than 1, and is never translated; another link succeeds exactly when it translates and then adds its translated triple; a missing node name is `KeyError`, any other failure `Exit` |
| Reconcile.TranslateLinks | flextaxd/modules/ModifyTree.py:180-199 | the links succeed exactly when every non-self-loop link translates; the state only grows; every such link ends up resolved; a foreign root in replace mode brings in the anchor's parent link |
| Reconcile.DatabaseMod | flextaxd/modules/ModifyTree.py:171-200 | succeeds exactly when every non-self-loop foreign link translates, fails only with `KeyError` or `Exit`, and leaves every such link resolved in a state that only grew |
| Reconcile.FirstUnknownRow | flextaxd/modules/ModifyTree.py:217-231 | nothing when every row is accepted with both names cached; otherwise the exception of the first row that is not: its own `ValueError` or `InputError`, else `AttributeError` |
| Reconcile.KnownRowsAllocateNothing | flextaxd/modules/ModifyTree.py:143-153 | every row is accepted with both names cached exactly when the rows are read without error and without caching a new name |
| Reconcile.FirstUnknownLink | flextaxd/modules/ModifyTree.py:180-199 | nothing when every link is a self-loop or translates to cached names; otherwise the exception of the first link that does not: `KeyError` for a missing node name, else `Exit` |
| Reconcile.KnownLinksAllocateNothing | flextaxd/modules/ModifyTree.py:143-153 | every foreign link is a self-loop or translates to cached names exactly when the links are read without error and without caching a new name |
| Reconcile.TranslateLinksKeepsRanks | flextaxd/modules/ModifyTree.py:180-193 | translating foreign links keeps every existing rank binding and keeps the codes fresh |
| Reconcile.TranslatedLinks | flextaxd/modules/ModifyTree.py:180-193 | the new links are exactly the old ones plus the translations of the non-self-loop foreign links, plus the anchor's parent link when replace mode meets a foreign root other than node 1 |
| Reconcile.AddLink | flextaxd/modules/ModifyTree.py:110-118 | no call returns normally; `TreeError` exactly when the child is falsy and the parent truthy, else `KeyError` exactly when the rank is unknown, else the missing attribute |
| Diff.OddGate | flextaxd/modules/ModifyTree.py:266-267 | `replace & len(existing) > 0` holds exactly when replace mode is on and the count is odd |
| Diff.AnchorLink | flextaxd/modules/ModifyTree.py:243-245 | there is a result exactly when the anchor is named and has a stored parent link, and then it is the anchor's id and such a link |
| Diff.ReadSource | flextaxd/modules/ModifyTree.py:252-257 | an unknown source kind is `InputError`; a database source succeeds exactly when its links translate and hands back its genomes and node names; a file source needs a valid header and hands back no genomes |
| Diff.NonOverlapping | flextaxd/modules/ModifyTree.py:266-267 | the set is non-empty only in replace mode with an odd-sized subtree, and then holds exactly the stored links touching a node that is both existing and new, other than the anchor |
| Diff.ParseModification | flextaxd/modules/ModifyTree.py:234-280 | `InputError` without an anchor parent link or with an unknown source; with an anchor, the parse fails exactly when the source read fails, and with the same exception; a successful parse carries exactly the state, genomes and node names the source read returns; the existing nodes are exactly the least set closed under stored child links from the anchor; the existing links are exactly the stored links touching them; old nodes, old links and overlapping links partition the existing ones against what the source proposes |
| Diff.Start | flextaxd/modules/ModifyTree.py:77-96 | a modification database wins over a file and is parsed without an allocator exactly when `clean_database` is set; with neither, the call succeeds with no delta exactly for a genome update or a clean, and is `InputError` otherwise; a clean run's delta caches no new name |
| Diff.UnallocatedRead | flextaxd/modules/ModifyTree.py:77-91 | nothing stops a read without an allocator exactly when the ordinary read succeeds and caches no new name |
| Diff.UnallocatedFailureKind | flextaxd/modules/ModifyTree.py:120-131 | when the ordinary read succeeds, a read without an allocator fails in `add_node`: `AttributeError` for a file, `exit()` for a database |
| Diff.ParseUnallocated | flextaxd/modules/ModifyTree.py:77-91 | without an anchor, `InputError`; otherwise the first failure of a read without an allocator, if any; it succeeds exactly when the ordinary parse succeeds without caching a new name, and then with the ordinary delta; when the ordinary parse succeeds but needs a new node, it fails with `AttributeError` (file) or `Exit` (database) |
| Apply.MinusParentLink | flextaxd/modules/ModifyTree.py:416-418 | subtracting `set(parent_link)` from a set of links leaves it unchanged |
| Apply.UpdateGenomes | flextaxd/modules/ModifyTree.py:325-359 | `KeyError` exactly when some genome's foreign node has no name; otherwise only genomes change, the genome keys gain exactly the genomes whose foreign node has a namesake, each such genome points at the namesake of the LAST entry for it, every other genome keeps its value, and the count is the number of skipped entries |
| Apply.AnnotationFields | flextaxd/modules/ModifyTree.py:295-298 | a row splitting into two by the separator gives those two columns; otherwise it splits by four spaces or is `ValueError`; the columns joined back give the stripped row |
| Apply.AnnotationId | flextaxd/modules/ModifyTree.py:300-309 | an integer name is taken as an id verbatim; another name resolves exactly when it is cached, to its cached id |
| Apply.RowEffect | flextaxd/modules/ModifyTree.py:293-314 | a row fails exactly when it does not split, with `ValueError`; it asks for an update exactly when its name resolves, pointing its stripped genome at that id |
| Apply.UpdateAnnotations | flextaxd/modules/ModifyTree.py:282-323 | succeeds exactly when every row splits; only genomes change; the genome keys gain exactly the genomes of rows that resolve; each such genome points at the node of the LAST row that resolves it, and every other genome keeps its value |
| Apply.AnchorSubtree | flextaxd/modules/ModifyTree.py:410 | nothing when the anchor is not named; otherwise the anchor's id and its descendants, which is the least set holding the anchor closed under stored child links |
| Apply.ReplaceCleanup | flextaxd/modules/ModifyTree.py:408-422 | replace mode removes the old and non-overlapping links when the latter are non-empty, removes the old nodes and only their names, drops exactly the genomes on the anchor's subtree and keeps the node of every other genome; ranks and counters are untouched |
| Apply.UpdateDatabase | flextaxd/modules/ModifyTree.py:406-447 | the final links are the kept links plus all new links; old nodes go only in replace mode; the inserted links are exactly the new links missing after the cleanup and the inserted nodes exactly the link ends without a node row then; the commit happens exactly when something was inserted or removed; without a transfer genomes change only through the replace cleanup; with one, each transferred genome gets its last entry's namesake and the count is the skipped entries; the call fails, always with `KeyError`, exactly when the changes are committed, there are genomes to transfer, and one of them points at a foreign node without a name |
| Clean.RootChildren | flextaxd/modules/ModifyTree.py:381 | exactly the children of node 1 over the stored links |
| Clean.Lineage | flextaxd/modules/ModifyTree.py:364-375 | the least set that contains every annotated node and is closed upward over the stored links; every member is annotated or the parent of a stored link |
| Clean.LineageExactly | flextaxd/modules/ModifyTree.py:364-375 | a node is in the lineage exactly when it is annotated or the top of an upward path of stored links from an annotated node |
| Clean.KeptNodes | flextaxd/modules/ModifyTree.py:364-383 | the lineage of the annotated nodes, plus the root's children exactly when `ncbi` is set |
| Clean.Prune | flextaxd/modules/ModifyTree.py:393-398 | links and nodes are removed only when the removal is neither empty nor everything; genome rows of removed nodes go only without `ncbi`; no other genome changes |
| Clean.CleanDatabase | flextaxd/modules/ModifyTree.py:361-404 | `InputError` exactly when nothing is annotated; a node is kept exactly when it is annotated, on an upward path of stored links from an annotated node, or (with `ncbi`) a child of the root; the kept and removed nodes split the node table; a link is removed exactly when its parent is not kept; the genome table never changes |
| Clean.RootSelfLinkKept | flextaxd/modules/ModifyTree.py:379-383 | with `ncbi` and the root's self-link stored, node 1 is kept whenever something is annotated |
| Clean.DanglingLinkKept | flextaxd/modules/ModifyTree.py:385-395 | under the `only_parents` reading of the backend query, a link from a kept node to a removed node survives, and its child loses its node row |
| Clean.PathKept | flextaxd/modules/ModifyTree.py:364-375 | every node on an upward path of stored links from an annotated node is in the lineage; with `Clean.LineageExactly` these are all its members |
| Clean.LineageLinksSurvive | flextaxd/modules/ModifyTree.py:385-394 | a stored link whose child is on an annotated lineage survives the clean |
| Store.ParentLink | flextaxd/modules/ModifyTree.py:243 | the parent link found is a stored link into the node, and there is none exactly when no stored link has the node as child |
| Store.Descendants | flextaxd/modules/ModifyTree.py:246 | the least set closed under stored child links from the node; each member is the child of some stored link |
| Store.Ancestors | flextaxd/modules/ModifyTree.py:375 | the least set closed under stored parent links from the given nodes; each member is the parent of some stored link |
| Store.AddLinks | flextaxd/modules/ModifyTree.py:424 | the stored links gain exactly the given ones; the inserted links are those not yet stored and the new nodes the link ends without a node row; nothing else changes |
| Text.Split | flextaxd/modules/ModifyTree.py:207 | the pieces join back to the input with the separator between them, the separator occurs in no piece, and each cut is at the leftmost occurrence: no occurrence starts inside a piece and runs into the separator after it |
| Ncbi.RankCode | flextaxd/modules/ReadTaxonomyNCBI.py:48-50 | a known rank keeps its code and changes nothing; an unknown one gets the next code; the dictionary gains exactly the name and keeps every other binding |
| Ncbi.NodeOfFields | flextaxd/modules/ReadTaxonomyNCBI.py:45-51 | `IndexError` exactly when fewer than three fields; otherwise the link is child field 0, parent field 1 and the code of the rank field, with "None" read as "no rank" |
| Ncbi.NodesRow | flextaxd/modules/ReadTaxonomyNCBI.py:44-51 | a stripped `nodes.dmp` row split on the column separator fails exactly with fewer than three fields; otherwise it stores the link the row says and never registers a rank called "None" |
| Ncbi.ReadNodes | flextaxd/modules/ReadTaxonomyNCBI.py:40-53 | `IndexError` exactly when some row has fewer than three fields; otherwise one link per row, each the link its row says under the final rank codes, and existing codes kept |
| Ncbi.NamesRow | flextaxd/modules/ReadTaxonomyNCBI.py:59-66 | `IndexError` exactly when fewer than two fields; a node exactly when there is no class field or it is "scientific name" or empty; the taxid and name read back as the start of the stripped row |
| Ncbi.ReadNames | flextaxd/modules/ReadTaxonomyNCBI.py:55-68 | `IndexError` exactly when some row has fewer than two fields; otherwise a pair is produced exactly when some row yields it, and the pairs are, in file order, one for each selected row |
| Ncbi.GenbankId | flextaxd/modules/ReadTaxonomyNCBI.py:72-73 | `IndexError` exactly when the name has no `_`; otherwise the id is a prefix of the name holding exactly one `_`, ending at a `_` or at the end of the name |
| Ncbi.RefseqId | flextaxd/modules/ReadTaxonomyNCBI.py:75 | the id has no space, does not start with `>`, and is the header's first token less its leading `>` characters |
| Ncbi.FastaSelected | flextaxd/modules/ReadTaxonomyNCBI.py:89 | a `.fna` or `.fna.gz` name whose stem does not start with `.`, `g` or `z` is selected |
| Ncbi.StemEaten | flextaxd/modules/ReadTaxonomyNCBI.py:89 | a `.fna` name whose stem is made only of `.`, `g` and `z` is not selected |
| Ncbi.ReadSequenceFiles | flextaxd/modules/ReadTaxonomyNCBI.py:86-91 | `IndexError` exactly when a selected file's name has no `_`; otherwise every selected file's sequence id is a key, and every key maps to the genome id of a selected file with that sequence id |
| Ncbi.AccessionRow | flextaxd/modules/ReadTaxonomyNCBI.py:99-105 | `ValueError` exactly when a row has fewer than three tab fields; a genome is added exactly when the accession is a known sequence id, as that sequence's genome and the row's taxid |
| Ncbi.Accessions | flextaxd/modules/ReadTaxonomyNCBI.py:97-105 | `ValueError` exactly when some row has fewer than three tab fields; otherwise the added genomes are, in row order, the (genome id, taxid) pair of each row whose accession is a known sequence id, and the count is the number of the other rows |
| Ncbi.ParseGenomeid2taxid | flextaxd/modules/ReadTaxonomyNCBI.py:80-108 | a file name not ending in `accession2taxid.gz` always fails, and `TypeError` comes only from that name check; on success the sequence table holds every selected file's sequence id, each mapped to a genome id some selected file provides; the rows after the header give, in order, the pair of each row that matches the table, and the count is the rows that do not |

## Left out

- `progressBar`, all logging, and the added/updated counters of
  `update_annotations` and `update_genomes`: they only report.
- File reading, gzip, `os.walk`, `os.path.exists` and the
  `FileNotFoundError` of the constructor: a file is given as its lines, a
  genome directory as the list of files found with each one's first line.
- The SQLite backend (`ModifyFunctions`, `DatabaseConnection`): each query
  is the small definition in `Store`. `get_links(nodes)` is taken to return
  the links touching the nodes. `get_links(nodes, only_parents=True)`, the
  links `clean_database` keeps, is taken to return the links whose parent
  is one of the nodes. That reading keeps a link from a kept node to a node
  the clean removes, so the store is left with a link whose child has no
  node row (`Clean.DanglingLinkKept`: links (1, 2) and (1, 3) with one
  genome on node 2 lose node 3 and keep the link (1, 3)). A backend that
  also required the child to be kept would remove that link, and
  `Clean.CleanDatabase`'s link clause would not hold for it.
  `get_children`/`get_parents(find_all)` are taken to return the
  transitive closures, and `get_genomes()` the genome-to-node table.
  In `clean_database` the keys of `get_genomes(cols="genome,id")` are
  taken to be the annotated node ids, as the surrounding code uses them.
- `commit`, `vacuum` and `validate_tree`: the model has no transactions,
  and the final tree check is not modelled.
- `ReadTaxonomy.add_rank` and `ReadTaxonomy.add_node`
  (`flextaxd/modules/ReadTaxonomy.py` is not part of this model): a new
  rank is taken to get the next code, and `add_node` with a forced id is
  not modelled for `read_names`, which returns the pairs it would add.
- `add_genome` failures inside the bare `except` of `parse_genomeid2taxid`:
  only a missing sequence id is counted.
- `_is_int`: only through `Text.IsInt`, ASCII digits with an optional
  sign; `int()`'s underscores and non-ASCII digits are not modelled.
- `Text.Strip` and `Text.Lower`: ASCII whitespace and ASCII letters only.
- Registry.TaxFix: computes the ceiling with integers; the source divides
  by the float `1000000.0`, which differs for ids beyond 2^53.
- Registry.AddNodes: states only the length of the id list; the allocation
  lemmas carry the id properties.
- Ncbi.ParseGenomeid2taxid: the contract describes the sequence table by
  its contents rather than naming `Ncbi.ReadSequenceFiles`, and does not
  say that a file-name `IndexError` from the genome directory comes before
  the `TypeError` of the name check (the body does it in that order).
- Reconcile.DatabaseMod: returns only the merge state; the second store's
  genomes are handed back by `Diff.ReadSource`, which wraps it.
- `Reconcile.AddLink` is never called by `ModifyTree`; it is modelled only
  for its error conditions.
- `parse_taxonomy` and the `ReadTaxonomyNCBI` constructor: file name
  handling only.

=== FILE: apply.dfy ===
/** Writing a computed modification into the primary store
    (`update_database`), transferring genome annotations from a second store
    (`update_genomes`) and reading a genome-to-node annotation file
    (`update_annotations`). */
module Apply {
  import opened Results
  import opened Text
  import opened Store
  import opened Registry
  import opened Diff

  // ---------------------------------------------------------------------
  // `set(self.parent_link)`

  /** A Python value as it may sit in a set: a link triple, an int or a str. */
  datatype PyValue = PyLink(link: Link) | PyInt(i: int) | PyStr(s: string)

  function Lift(ls: set<Link>): set<PyValue> {
    set l | l in ls :: PyLink(l)
  }

  function Unlift(vs: set<PyValue>): set<Link> {
    set v | v in vs && v.PyLink? :: v.link
  }

  /** `set(link)` makes a set of the triple's ELEMENTS, not of the triple. */
  function Elements(l: Link): set<PyValue> {
    {PyInt(l.parent), PyInt(l.child), match l.rank case Name(n) => PyStr(n) case Code(c) => PyInt(c)}
  }

  /** `links - set(self.parent_link)`: the subtraction removes nothing, so
      the anchor's parent link is never protected from deletion by it. */
  function MinusParentLink(ls: set<Link>, parentLink: Link): (r: set<Link>)
    ensures r == ls
  {
    var lifted := Lift(ls) - Elements(parentLink);
    assert lifted == Lift(ls);
    assert forall l :: l in ls ==> PyLink(l) in lifted;
    Unlift(lifted)
  }

  // ---------------------------------------------------------------------
  // update_genomes

  /** A genome entry whose foreign node name has no namesake in the
      primary store. */
  predicate Unmatched(names: map<string, int>, ann: map<int, string>, e: (string, int)) {
    e.1 in ann && Strip(ann[e.1]) !in names
  }

  /** The positions of the entries `update_genomes` skips. */
  ghost function Missed(names: map<string, int>, entries: seq<(string, int)>, ann: map<int, string>): set<int> {
    Positions(entries, e => Unmatched(names, ann, e))
  }

  /** The genomes `update_genomes` writes: those whose foreign node has a
      namesake in the primary store. */
  ghost function Transferred(names: map<string, int>, entries: seq<(string, int)>, ann: map<int, string>): set<string> {
    set e | e in entries && e.1 in ann && Strip(ann[e.1]) in names :: Strip(e.0)
  }

  lemma UnionStep<T>(a: set<T>, x: set<T>, rest: set<T>, all: set<T>)
    requires all == rest + x
    ensures (a + x) + rest == a + all
  {
  }

  lemma TransferredCons(names: map<string, int>, entries: seq<(string, int)>, ann: map<int, string>)
    requires |entries| > 0 && entries[0].1 in ann
    ensures Transferred(names, entries, ann) ==
      Transferred(names, entries[1..], ann) + (if Strip(ann[entries[0].1]) in names then {Strip(entries[0].0)} else {})
  {
    assert forall x :: x in entries <==> x == entries[0] || x in entries[1..];
  }

  /** `update_genomes`: for each genome of the second store, translate its
      node id to the node's stripped name (`KeyError`, uncaught, when the
      id has no name) and the name to a primary node id; a name with no
      primary node skips the genome and is counted; otherwise the genome
      row is written. The result holds the count of skipped genomes. */
  function UpdateGenomes(db: Store, entries: seq<(string, int)>, ann: map<int, string>): (r: Result<(Store, nat)>)
    ensures r.Ok? <==> forall e :: e in entries ==> e.1 in ann
    ensures r.Err? ==> r.error == KeyError
    ensures r.Ok? ==> r.value.0 == db.(genomes := r.value.0.genomes)
    ensures r.Ok? ==> r.value.1 == |Missed(db.names, entries, ann)|
    ensures r.Ok? ==> r.value.0.genomes.Keys == db.genomes.Keys + Transferred(db.names, entries, ann)
    ensures r.Ok? ==> TransfersTo(db.names, entries, ann, db.genomes, r.value.0.genomes)
    decreases |entries|
  {
    if |entries| == 0 then Ok((db, 0))
    else
      var e := entries[0];
      if e.1 !in ann then Err(KeyError)
      else
        var name := Strip(ann[e.1]);
        var db1 := if name in db.names then SetGenome(db, Strip(e.0), db.names[name]).0 else db;
        var added := if name in db.names then {Strip(e.0)} else {};
        assert db1.genomes.Keys == db.genomes.Keys + added;
        match UpdateGenomes(db1, entries[1..], ann)
        case Err(err) => Err(err)
        case Ok((db2, n)) =>
          assert forall x :: x in entries <==> x == e || x in entries[1..];
          MissedCons(db.names, entries, ann);
          TransferredCons(db.names, entries, ann);
          UnionStep(db.genomes.Keys, added, Transferred(db.names, entries[1..], ann), Transferred(db.names, entries, ann));
          TransferStep(db.names, entries, ann, db.genomes, db1.genomes, db2.genomes);
          Ok((db2, if name in db.names then n else n + 1))
  }

  /** Entry `e` writes genome `g`: its stripped genome id is `g` and its
      node name has a namesake in the primary store. */
  predicate Writes(names: map<string, int>, ann: map<int, string>, e: (string, int), g: string) {
    Strip(e.0) == g && e.1 in ann && Strip(ann[e.1]) in names
  }

  /** The node the LAST entry that writes genome `g` points it at, read
      from the end of the entries; none when no entry writes `g`. */
  ghost function LastTransfer(names: map<string, int>, entries: seq<(string, int)>, ann: map<int, string>, g: string): Option<int>
    decreases |entries|
  {
    if |entries| == 0 then None
    else
      var e := entries[|entries| - 1];
      if Writes(names, ann, e, g) then Some(names[Strip(ann[e.1])])
      else LastTransfer(names, entries[..|entries| - 1], ann, g)
  }

  /** The last writer of `g` is the last one after the first entry, or else
      the first entry itself. */
  lemma {:induction false} LastTransferCons(names: map<string, int>, entries: seq<(string, int)>, ann: map<int, string>, g: string)
    requires |entries| > 0
    ensures LastTransfer(names, entries, ann, g) ==
      (if LastTransfer(names, entries[1..], ann, g).Some? then LastTransfer(names, entries[1..], ann, g)
       else if Writes(names, ann, entries[0], g) then Some(names[Strip(ann[entries[0].1])])
       else None)
    decreases |entries|
  {
    if |entries| > 1 {
      var front := entries[..|entries| - 1];
      LastTransferCons(names, front, ann, g);
      assert front[1..] == entries[1..][..|entries| - 2];
      assert entries[1..][|entries| - 2] == entries[|entries| - 1];
    }
  }

  /** The genome table `after` holds what `update_genomes` writes into
      `before`: each genome some entry writes points where its last writer
      says, and every other genome keeps its row. */
  ghost predicate TransfersTo(names: map<string, int>, entries: seq<(string, int)>, ann: map<int, string>,
                              before: map<string, int>, after: map<string, int>) {
    && before.Keys <= after.Keys
    && (forall g :: LastTransfer(names, entries, ann, g).Some? ==>
          g in after && after[g] == LastTransfer(names, entries, ann, g).value)
    && (forall g :: g in after && LastTransfer(names, entries, ann, g).None? ==>
          g in before && after[g] == before[g])
  }

  /** One step of `update_genomes`: writing the first entry and then the
      rest writes what the whole run writes. */
  lemma TransferStep(names: map<string, int>, entries: seq<(string, int)>, ann: map<int, string>,
                     before: map<string, int>, mid: map<string, int>, after: map<string, int>)
    requires |entries| > 0 && entries[0].1 in ann
    requires mid == (if Strip(ann[entries[0].1]) in names
                     then before[Strip(entries[0].0) := names[Strip(ann[entries[0].1])]] else before)
    requires TransfersTo(names, entries[1..], ann, mid, after)
    ensures TransfersTo(names, entries, ann, before, after)
  {
    forall g {
      LastTransferCons(names, entries, ann, g);
    }
  }

  lemma MissedCons(names: map<string, int>, entries: seq<(string, int)>, ann: map<int, string>)
    requires |entries| > 0
    ensures |Missed(names, entries, ann)| ==
      |Missed(names, entries[1..], ann)| + (if Unmatched(names, ann, entries[0]) then 1 else 0)
  {
    PositionsCons(entries, e => Unmatched(names, ann, e));
  }

  // ---------------------------------------------------------------------
  // update_annotations

  /** The genome and name columns of an annotation row: the row stripped and
      split by the separator, or, when that does not give two fields (an
      empty separator included), by four spaces; `ValueError` otherwise. */
  function AnnotationFields(row: string, sep: string): (r: Result<(string, string)>)
    ensures sep != "" && |Split(Strip(row), sep)| == 2 ==>
      r.Ok? && Strip(row) == r.value.0 + sep + r.value.1
    ensures !(sep != "" && |Split(Strip(row), sep)| == 2) ==>
      (r.Ok? <==> |Split(Strip(row), "    ")| == 2) &&
      (r.Ok? ==> Strip(row) == r.value.0 + "    " + r.value.1)
    ensures r.Err? ==> r.error == ValueError
  {
    var f := if sep != "" then Split(Strip(row), sep) else [];
    if |f| == 2 then
      assert Join(f, sep) == f[0] + sep + Join(f[1..], sep);
      Ok((f[0], f[1]))
    else
      var g := Split(Strip(row), "    ");
      if |g| == 2 then
        assert Join(g, "    ") == g[0] + "    " + Join(g[1..], "    ");
        Ok((g[0], g[1]))
      else Err(ValueError)
  }

  /** The node id a name column resolves to: an integer taken as an id
      verbatim, else the cached id of that name, else none. */
  function AnnotationId(names: map<string, int>, name: string): (r: Option<int>)
    ensures IsInt(Strip(name)) ==> r == Some(ParseInt(Strip(name)))
    ensures !IsInt(Strip(name)) ==> (r.Some? <==> Strip(name) in names)
    ensures !IsInt(Strip(name)) && r.Some? ==> r.value == names[Strip(name)]
  {
    var n := Strip(name);
    if IsInt(n) then Some(ParseInt(n))
    else if n in names then Some(names[n])
    else None
  }

  /** A row resolves when it splits and its name resolves. */
  predicate Resolves(names: map<string, int>, row: string, sep: string) {
    AnnotationFields(row, sep).Ok? && AnnotationId(names, AnnotationFields(row, sep).value.1).Some?
  }

  /** The stripped genome column of a row that splits. */
  function GenomeOf(row: string, sep: string): string
    requires AnnotationFields(row, sep).Ok?
  {
    Strip(AnnotationFields(row, sep).value.0)
  }

  /** What one row of `update_annotations` asks for: `ValueError` when it
      does not split, nothing when its name does not resolve, otherwise the
      stripped genome and the node it points to. */
  function RowEffect(names: map<string, int>, row: string, sep: string): (r: Result<Option<(string, int)>>)
    ensures r.Ok? <==> AnnotationFields(row, sep).Ok?
    ensures r.Err? ==> r.error == ValueError
    ensures r.Ok? ==> (r.value.Some? <==> Resolves(names, row, sep))
    ensures r.Ok? && r.value.Some? ==>
      r.value.value == (GenomeOf(row, sep), AnnotationId(names, AnnotationFields(row, sep).value.1).value)
  {
    var (g, n) :- AnnotationFields(row, sep);
    match AnnotationId(names, n)
    case None => Ok(None)
    case Some(id) => Ok(Some((Strip(g), id)))
  }

  /** The genomes a sequence of row effects points somewhere. */
  ghost function Targets(effs: seq<Result<Option<(string, int)>>>): set<string> {
    set e | e in effs && e.Ok? && e.value.Some? :: e.value.value.0
  }

  lemma TargetsCons(effs: seq<Result<Option<(string, int)>>>)
    requires |effs| > 0 && effs[0].Ok?
    ensures Targets(effs) ==
      Targets(effs[1..]) + (if effs[0].value.Some? then {effs[0].value.value.0} else {})
  {
    assert forall e :: e in effs <==> e == effs[0] || e in effs[1..];
  }

  /** The node the LAST resolved effect for genome `g` points it at, read
      from the end of the effects; none when no effect names `g`. */
  ghost function LastEffect(effs: seq<Result<Option<(string, int)>>>, g: string): Option<int>
    decreases |effs|
  {
    if |effs| == 0 then None
    else
      var e := effs[|effs| - 1];
      if e.Ok? && e.value.Some? && e.value.value.0 == g then Some(e.value.value.1)
      else LastEffect(effs[..|effs| - 1], g)
  }

  /** The last effect for `g` is the last one after the first effect, or
      else the first effect itself. */
  lemma {:induction false} LastEffectCons(effs: seq<Result<Option<(string, int)>>>, g: string)
    requires |effs| > 0
    ensures LastEffect(effs, g) ==
      (if LastEffect(effs[1..], g).Some? then LastEffect(effs[1..], g)
       else if effs[0].Ok? && effs[0].value.Some? && effs[0].value.value.0 == g then Some(effs[0].value.value.1)
       else None)
    decreases |effs|
  {
    if |effs| > 1 {
      var front := effs[..|effs| - 1];
      LastEffectCons(front, g);
      assert front[1..] == effs[1..][..|effs| - 2];
      assert effs[1..][|effs| - 2] == effs[|effs| - 1];
    }
  }

  lemma LastEffectSnoc(effs: seq<Result<Option<(string, int)>>>, g: string)
    requires |effs| > 0
    ensures LastEffect(effs, g) ==
      (if effs[|effs| - 1].Ok? && effs[|effs| - 1].value.Some? && effs[|effs| - 1].value.value.0 == g
       then Some(effs[|effs| - 1].value.value.1) else LastEffect(effs[..|effs| - 1], g))
  {
  }

  /** The genome table `after` holds what applying `effs` to `before`
      writes: each genome some effect names points where its last effect
      says, and every other genome keeps its row. */
  ghost predicate EffectsTo(effs: seq<Result<Option<(string, int)>>>, before: map<string, int>, after: map<string, int>) {
    && before.Keys <= after.Keys
    && (forall g :: LastEffect(effs, g).Some? ==> g in after && after[g] == LastEffect(effs, g).value)
    && (forall g :: g in after && LastEffect(effs, g).None? ==> g in before && after[g] == before[g])
  }

  /** One step of `update_annotations`: applying the first effect and then
      the rest writes what the whole run writes. */
  lemma EffectStep(effs: seq<Result<Option<(string, int)>>>,
                   before: map<string, int>, mid: map<string, int>, after: map<string, int>)
    requires |effs| > 0 && effs[0].Ok?
    requires mid == (if effs[0].value.Some? then before[effs[0].value.value.0 := effs[0].value.value.1] else before)
    requires EffectsTo(effs[1..], mid, after)
    ensures EffectsTo(effs, before, after)
  {
    forall g {
      LastEffectCons(effs, g);
    }
  }

  /** The row effects applied in order: the first failing row raises its
      error; a resolved row points its genome at its node. */
  function ApplyEffects(db: Store, effs: seq<Result<Option<(string, int)>>>): (r: Result<Store>)
    ensures r.Ok? <==> forall e :: e in effs ==> e.Ok?
    ensures r.Err? ==> Err(r.error) in effs
    ensures r.Ok? ==> r.value == db.(genomes := r.value.genomes)
    ensures r.Ok? ==> r.value.genomes.Keys == db.genomes.Keys + Targets(effs)
    ensures r.Ok? ==> forall g :: g in r.value.genomes ==>
      (g in db.genomes && r.value.genomes[g] == db.genomes[g]) || Ok(Some((g, r.value.genomes[g]))) in effs
    ensures r.Ok? ==> EffectsTo(effs, db.genomes, r.value.genomes)
    decreases |effs|
  {
    if |effs| == 0 then Ok(db)
    else
      assert forall e :: e in effs <==> e == effs[0] || e in effs[1..];
      match effs[0]
      case Err(err) => Err(err)
      case Ok(o) =>
        var db1 := if o.Some? then SetGenome(db, o.value.0, o.value.1).0 else db;
        TargetsCons(effs);
        var rest := ApplyEffects(db1, effs[1..]);
        assert rest.Ok? ==> EffectsTo(effs, db.genomes, rest.value.genomes) by {
          if rest.Ok? {
            EffectStep(effs, db.genomes, db1.genomes, rest.value.genomes);
          }
        }
        rest
  }

  /** The genomes the rows that resolve point somewhere. */
  ghost function Annotated(names: map<string, int>, rows: seq<string>, sep: string): set<string> {
    set row | row in rows && Resolves(names, row, sep) :: GenomeOf(row, sep)
  }

  lemma AnnotatedTargets(names: map<string, int>, rows: seq<string>, sep: string)
    ensures Targets(Image(rows, row => RowEffect(names, row, sep))) == Annotated(names, rows, sep)
  {
    var effs := Image(rows, row => RowEffect(names, row, sep));
    forall g | g in Targets(effs)
      ensures g in Annotated(names, rows, sep)
    {
      var e :| e in effs && e.Ok? && e.value.Some? && e.value.value.0 == g;
      var row :| row in rows && RowEffect(names, row, sep) == e;
    }
    forall g | g in Annotated(names, rows, sep)
      ensures g in Targets(effs)
    {
      var row :| row in rows && Resolves(names, row, sep) && GenomeOf(row, sep) == g;
      assert RowEffect(names, row, sep) in effs;
    }
  }

  /** The node a resolving row points its genome at. */
  function NodeOf(names: map<string, int>, row: string, sep: string): int
    requires Resolves(names, row, sep)
  {
    AnnotationId(names, AnnotationFields(row, sep).value.1).value
  }

  /** The node the LAST row that resolves genome `g` points it at, read
      from the end of the rows; none when no resolving row names `g`. */
  ghost function LastAnnotation(names: map<string, int>, rows: seq<string>, sep: string, g: string): Option<int>
    decreases |rows|
  {
    if |rows| == 0 then None
    else
      var row := rows[|rows| - 1];
      if Resolves(names, row, sep) && GenomeOf(row, sep) == g then Some(NodeOf(names, row, sep))
      else LastAnnotation(names, rows[..|rows| - 1], sep, g)
  }

  /** Read from the end, the last resolved effect of the rows is the last
      resolving row. */
  lemma {:induction false} LastEffectRows(names: map<string, int>, rows: seq<string>, sep: string, g: string)
    ensures LastEffect(Image(rows, row => RowEffect(names, row, sep)), g) == LastAnnotation(names, rows, sep, g)
    decreases |rows|
  {
    if |rows| > 0 {
      var n := |rows|;
      var front := rows[..n - 1];
      var row := rows[n - 1];
      var effs := Image(rows, row => RowEffect(names, row, sep));
      var fronts := Image(front, row => RowEffect(names, row, sep));
      LastEffectRows(names, front, sep, g);
      ImagePrefix(rows, row => RowEffect(names, row, sep));
      LastEffectSnoc(effs, g);
      RowEffectFor(names, row, sep, g);
    }
  }

  /** The effect of one row names genome `g` exactly when the row resolves
      `g`, and then it carries the row's node. */
  lemma RowEffectFor(names: map<string, int>, row: string, sep: string, g: string)
    ensures var e := RowEffect(names, row, sep);
      (e.Ok? && e.value.Some? && e.value.value.0 == g) <==> (Resolves(names, row, sep) && GenomeOf(row, sep) == g)
    ensures var e := RowEffect(names, row, sep);
      e.Ok? && e.value.Some? ==> e.value.value.1 == NodeOf(names, row, sep)
  {
  }

  /** `update_annotations`: the rows in file order; a row that does not
      split raises `ValueError` (a blank row included); a row whose name
      resolves points its genome at that node, any other row is skipped. */
  function UpdateAnnotations(db: Store, names: map<string, int>, rows: seq<string>, sep: string): (r: Result<Store>)
    ensures r.Ok? <==> forall row :: row in rows ==> AnnotationFields(row, sep).Ok?
    ensures r.Err? ==> r.error == ValueError
    ensures r.Ok? ==> r.value == db.(genomes := r.value.genomes)
    ensures r.Ok? ==> r.value.genomes.Keys == db.genomes.Keys + Annotated(names, rows, sep)
    ensures r.Ok? ==> forall g :: g in r.value.genomes ==>
      (g in db.genomes && r.value.genomes[g] == db.genomes[g]) ||
      exists row :: row in rows && RowEffect(names, row, sep) == Ok(Some((g, r.value.genomes[g])))
    ensures r.Ok? ==> forall g :: LastAnnotation(names, rows, sep, g).Some? ==>
      g in r.value.genomes && r.value.genomes[g] == LastAnnotation(names, rows, sep, g).value
    ensures r.Ok? ==> forall g :: g in r.value.genomes && LastAnnotation(names, rows, sep, g).None? ==>
      g in db.genomes && r.value.genomes[g] == db.genomes[g]
  {
    var effs := Image(rows, row => RowEffect(names, row, sep));
    AnnotatedTargets(names, rows, sep);
    forall g
      ensures LastEffect(effs, g) == LastAnnotation(names, rows, sep, g)
    {
      LastEffectRows(names, rows, sep, g);
    }
    ApplyEffects(db, effs)
  }

  // ---------------------------------------------------------------------
  // update_database

  /** What `update_database` leaves behind. */
  datatype Applied = Applied(
    db: Store,
    committed: bool,              // whether commit() is reached
    insertedLinks: set<Link>,     // the links add_links inserted
    insertedNodes: set<int>,      // the link ends add_links found without a node row
    notAdded: nat)                // genomes update_genomes skipped

  /** The genome-bearing nodes replace mode clears: the anchor and its subtree. */
  function AnchorSubtree(db: Store, anchor: string): (r: set<int>)
    ensures anchor !in db.names ==> r == {}
    ensures anchor in db.names ==> r == {db.names[anchor]} + Descendants(db, db.names[anchor])
    ensures anchor in db.names ==> db.names[anchor] in r && ClosedBelow(db, db.names[anchor], r)
    ensures anchor in db.names ==>
      forall sub :: db.names[anchor] in sub && ClosedBelow(db, db.names[anchor], sub) ==> r <= sub
  {
    match NodeId(db, anchor)
    case None => {}
    case Some(a) => Descendants(db, a) + {a}
  }

  /** The deletions replace mode makes before any link is inserted: the
      genome rows of the anchor's subtree; the old and non-overlapping links
      when the non-overlapping set (less `set(parent_link)`, which removes
      nothing) is non-empty; the old nodes when there are any. */
  function ReplaceCleanup(d: Delta, anchor: string): (r: Store)
    ensures Links(r) ==
      (if d.nonOverlappingOldLinks != {} then Links(d.session.db) - (d.oldLinks + d.nonOverlappingOldLinks)
       else Links(d.session.db))
    ensures Ids(r) == Ids(d.session.db) - d.oldNodes
    ensures forall g :: g in r.genomes <==>
      g in d.session.db.genomes && d.session.db.genomes[g] !in AnchorSubtree(d.session.db, anchor)
    ensures forall g :: g in r.genomes ==> r.genomes[g] == d.session.db.genomes[g]
    ensures forall n :: n in r.names <==> n in d.session.db.names && d.session.db.names[n] !in d.oldNodes
    ensures forall n :: n in r.names ==> r.names[n] == d.session.db.names[n]
    ensures r.ranks == d.session.db.ranks && r.nextId == d.session.db.nextId && r.nextRank == d.session.db.nextRank
  {
    var db0 := d.session.db;
    var db1 := DeleteGenomes(db0, AnchorSubtree(db0, anchor));
    var db2 :=
      if |MinusParentLink(d.nonOverlappingOldLinks, d.parentLink)| > 0
      then DeleteLinks(db1, MinusParentLink(d.oldLinks + d.nonOverlappingOldLinks, d.parentLink))
      else db1;
    if |d.oldNodes| > 0 then DeleteNodes(db2, d.oldNodes) else db2
  }

  /** The primary store once the deletions are done: `ReplaceCleanup` in
      replace mode, the store as it is otherwise. */
  function Cleared(d: Delta, anchor: string): Store {
    if d.session.replace then ReplaceCleanup(d, anchor) else d.session.db
  }

  /** The links and nodes left once the deletions are done. */
  lemma ClearedShape(d: Delta, anchor: string)
    ensures Links(Cleared(d, anchor)) ==
      (if d.session.replace && d.nonOverlappingOldLinks != {}
       then Links(d.session.db) - (d.oldLinks + d.nonOverlappingOldLinks)
       else Links(d.session.db))
    ensures Ids(Cleared(d, anchor)) == (if d.session.replace then Ids(d.session.db) - d.oldNodes else Ids(d.session.db))
    ensures !d.session.replace ==> Cleared(d, anchor).genomes == d.session.db.genomes
    ensures d.session.replace ==> forall g :: g in Cleared(d, anchor).genomes <==>
      g in d.session.db.genomes && d.session.db.genomes[g] !in AnchorSubtree(d.session.db, anchor)
  {
  }

  /** `update_database`. In replace mode the deletions of `ReplaceCleanup`
      come first. Then the new links are inserted; the changes are committed
      only when a link or node was inserted or the non-overlapping set is
      non-empty, and only then are the second store's genomes transferred. */
  method UpdateDatabase(d: Delta, anchor: string) returns (r: Result<Applied>)
    ensures var db0 := d.session.db;
      r.Ok? ==> && Links(r.value.db) ==
                     (if d.session.replace && d.nonOverlappingOldLinks != {}
                      then Links(db0) - (d.oldLinks + d.nonOverlappingOldLinks)
                      else Links(db0)) + d.session.newLinks
                && Ids(r.value.db) == (if d.session.replace then Ids(db0) - d.oldNodes else Ids(db0))
    ensures r.Ok? ==> r.value.insertedLinks == d.session.newLinks - Links(Cleared(d, anchor))
    ensures r.Ok? ==> r.value.insertedNodes == Ends(d.session.newLinks) - Ids(Cleared(d, anchor))
    ensures r.Ok? ==> (r.value.committed <==>
      |r.value.insertedLinks| + |r.value.insertedNodes| + |d.nonOverlappingOldLinks| > 0)
    ensures r.Ok? && !d.session.replace && (!r.value.committed || d.modGenomes == []) ==>
      r.value.db.genomes == d.session.db.genomes
    ensures r.Ok? && d.session.replace && (!r.value.committed || d.modGenomes == []) ==>
      forall g :: g in r.value.db.genomes <==>
        g in d.session.db.genomes && d.session.db.genomes[g] !in AnchorSubtree(d.session.db, anchor)
    ensures r.Ok? && r.value.committed && d.modGenomes != [] ==>
      var c := Cleared(d, anchor);
      TransfersTo(c.names, d.modGenomes, d.annotation, c.genomes, r.value.db.genomes)
      && r.value.db.genomes.Keys == c.genomes.Keys + Transferred(c.names, d.modGenomes, d.annotation)
      && r.value.notAdded == |Missed(c.names, d.modGenomes, d.annotation)|
    ensures r.Err? ==> r.error == KeyError && d.modGenomes != [] && exists e :: e in d.modGenomes && e.1 !in d.annotation
    ensures r.Err? <==>
      && d.modGenomes != []
      && |d.session.newLinks - Links(Cleared(d, anchor))| + |Ends(d.session.newLinks) - Ids(Cleared(d, anchor))|
         + |d.nonOverlappingOldLinks| > 0
      && exists e :: e in d.modGenomes && e.1 !in d.annotation
  {
    var db := Cleared(d, anchor);
    ClearedShape(d, anchor);
    var db2, links, nodes := AddLinks(db, d.session.newLinks);
    assert db2.names == db.names && db2.genomes == db.genomes;
    var committed := |links| + |nodes| + |d.nonOverlappingOldLinks| > 0;
    if committed && |d.modGenomes| > 0 {
      var u := UpdateGenomes(db2, d.modGenomes, d.annotation);
      if u.Err? {
        return Err(u.error);
      }
      assert u.value.0 == db2.(genomes := u.value.0.genomes);
      assert Ids(u.value.0) == Ids(db2) && Links(u.value.0) == Links(db2);
      assert TransfersTo(db.names, d.modGenomes, d.annotation, db.genomes, u.value.0.genomes);
      assert u.value.0.genomes.Keys == db.genomes.Keys + Transferred(db.names, d.modGenomes, d.annotation);
      assert u.value.1 == |Missed(db.names, d.modGenomes, d.annotation)|;
      return Ok(Applied(u.value.0, committed, links, nodes, u.value.1));
    }
    return Ok(Applied(db2, committed, links, nodes, 0));
  }
}

=== FILE: clean.dfy ===
/** `clean_database`: keep the annotated nodes and everything above them,
    and delete the rest of the tree. */
module Clean {
  import opened Results
  import opened Store

  /** `get_children([1], maxdepth=1)`: the root's direct children. */
  function RootChildren(db: Store): (r: set<int>)
    ensures forall l :: l in Links(db) && l.parent == 1 ==> l.child in r
    ensures forall c :: c in r ==> exists l :: l in Links(db) && l.parent == 1 && l.child == c
  {
    set l | l in db.tree && l.parent == 1 :: l.child
  }

  /** With `ncbi` and the root's self-link stored (as `read_nodes` stores
      the first row of an NCBI `nodes.dmp`), node 1 is one of the root's
      children and so is always kept. */
  lemma RootSelfLinkKept(db: Store, rank: RankKey)
    requires Link(1, 1, rank) in Links(db) && db.genomes != map[]
    ensures CleanDatabase(db, true).Ok? && 1 in CleanDatabase(db, true).value.kept
  {
    assert 1 in RootChildren(db);
  }

  /** Under the reading of `get_links(nodes, only_parents=True)` as the
      links whose parent is in `nodes`, a link from a kept node to a node
      the clean removes survives, and the store is left with a link whose
      child has no node row: with links (1, 2) and (1, 3) and one genome on
      node 2, node 3 goes but the link (1, 3) stays. */
  lemma DanglingLinkKept(db: Store, ncbi: bool, l: Link)
    requires db.genomes != map[] && l in Links(db)
    requires l.parent in KeptNodes(db, ncbi) && l.parent in Ids(db)
    requires l.child !in KeptNodes(db, ncbi) && l.child in Ids(db)
    ensures var c := CleanDatabase(db, ncbi).value;
      l in Links(c.db) && l.child !in Ids(c.db)
  {
    var c := CleanDatabase(db, ncbi).value;
    assert l.child in c.cleanNodes && l.parent !in c.cleanNodes;
    assert c.cleanNodes < Ids(db);
  }

  /** What `clean_database` computes and leaves behind. */
  datatype Cleaned = Cleaned(
    db: Store,
    kept: set<int>,          // self.annotated_nodes after the closure
    cleanLinks: set<Link>,   // self.clean_links
    cleanNodes: set<int>)    // self.clean_nodes

  /** Every parent of a member of `nodes` is a member. */
  predicate UpClosed(db: Store, nodes: set<int>) {
    forall l :: l in Links(db) && l.child in nodes ==> l.parent in nodes
  }

  /** The annotated nodes and all their ancestors: the least set that holds
      every annotated node and is closed under taking parents. */
  function Lineage(db: Store): (r: set<int>)
    ensures db.genomes.Values <= r
    ensures UpClosed(db, r)
    ensures forall nodes :: db.genomes.Values <= nodes && UpClosed(db, nodes) ==> r <= nodes
    ensures forall n :: n in r ==> n in db.genomes.Values || exists l :: l in Links(db) && l.parent == n
  {
    var up := Ancestors(db, db.genomes.Values);
    forall nodes | db.genomes.Values <= nodes && UpClosed(db, nodes)
      ensures up <= nodes
    {
      assert ClosedAbove(db, db.genomes.Values, nodes);
    }
    db.genomes.Values + up
  }

  /** An upward path of stored links: each link's child is the previous
      link's parent. */
  predicate UpPath(db: Store, path: seq<Link>) {
    && |path| > 0
    && (forall i :: 0 <= i < |path| ==> path[i] in Links(db))
    && (forall i :: 0 < i < |path| ==> path[i].child == path[i - 1].parent)
  }

  /** A node lies on an annotated lineage: it is annotated, or an upward
      path of stored links leads to it from an annotated node. */
  ghost predicate OnLineage(db: Store, n: int) {
    n in db.genomes.Values ||
    exists path: seq<Link> :: UpPath(db, path) && path[0].child in db.genomes.Values && path[|path| - 1].parent == n
  }

  /** The nodes `clean_database` keeps: the lineage of the annotated nodes
      and, for `ncbi`, the root's children. */
  function KeptNodes(db: Store, ncbi: bool): (kept: set<int>)
    ensures Lineage(db) <= kept
    ensures ncbi ==> RootChildren(db) <= kept
    ensures forall n :: n in kept ==> n in Lineage(db) || (ncbi && n in RootChildren(db))
  {
    Lineage(db) + (if ncbi then RootChildren(db) else {})
  }

  /** The deletions of `clean_database`, each guarded so that it removes
      something but not everything. */
  function Prune(db: Store, cleanLinks: set<Link>, cleanNodes: set<int>, ncbi: bool): (r: Store)
    requires cleanLinks <= Links(db) && cleanNodes <= Ids(db)
    ensures Links(r) == (if 0 < |cleanLinks| < |Links(db)| then Links(db) - cleanLinks else Links(db))
    ensures Ids(r) == (if 0 < |cleanNodes| < |Ids(db)| then Ids(db) - cleanNodes else Ids(db))
    ensures forall g :: g in r.genomes <==>
      g in db.genomes && !(!ncbi && 0 < |cleanNodes| < |Ids(db)| && db.genomes[g] in cleanNodes)
    ensures forall g :: g in r.genomes ==> r.genomes[g] == db.genomes[g]
    ensures (forall g :: g in db.genomes ==> db.genomes[g] !in cleanNodes) ==> r.genomes == db.genomes
  {
    var db1 := if |cleanLinks| < |Links(db)| && |cleanLinks| > 0 then DeleteLinks(db, cleanLinks) else db;
    if |cleanNodes| < |Ids(db)| && |cleanNodes| > 0 then
      var d := DeleteNodes(db1, cleanNodes);
      if !ncbi then DeleteGenomes(d, cleanNodes) else d
    else db1
  }

  lemma NoAnnotations(m: map<string, int>)
    ensures |m.Values| == 0 <==> m == map[]
  {
    if m != map[] {
      var g := Pick(m.Keys);
      assert m[g] in m.Values;
    }
  }

  lemma AnnotatedNotClean(genomes: map<string, int>, cleanNodes: set<int>)
    requires genomes.Values !! cleanNodes
    ensures forall g :: g in genomes ==> genomes[g] !in cleanNodes
  {
    forall g | g in genomes
      ensures genomes[g] !in cleanNodes
    {
      assert genomes[g] in genomes.Values;
    }
  }

  /** `clean_database(ncbi)`: refuse an unannotated store (`InputError`);
      the links to remove are those whose parent is not kept and the nodes
      to remove are those not kept; genome rows of removed nodes are
      deleted only without `ncbi`, but no removed node carries a genome, so
      the genome table never changes. */
  function CleanDatabase(db: Store, ncbi: bool): (r: Result<Cleaned>)
    ensures r.Ok? <==> db.genomes != map[]
    ensures r.Err? ==> r.error == InputError
    ensures r.Ok? ==> r.value.kept == KeptNodes(db, ncbi)
    ensures r.Ok? ==> r.value.cleanNodes !! r.value.kept && r.value.cleanNodes <= Ids(db)
    ensures r.Ok? ==> Ids(db) <= r.value.cleanNodes + r.value.kept
    ensures r.Ok? ==> forall l :: l in Links(db) ==> (l in r.value.cleanLinks <==> l.parent !in r.value.kept)
    ensures r.Ok? ==> r.value.cleanLinks <= Links(db)
    ensures r.Ok? ==> (Links(r.value.db) ==
      (if 0 < |r.value.cleanLinks| < |Links(db)| then Links(db) - r.value.cleanLinks else Links(db)))
    ensures r.Ok? ==> (Ids(r.value.db) ==
      (if 0 < |r.value.cleanNodes| < |Ids(db)| then Ids(db) - r.value.cleanNodes else Ids(db)))
    ensures r.Ok? ==> Ids(db) * r.value.kept <= Ids(r.value.db)
    ensures r.Ok? ==> forall n :: n in r.value.kept <==> OnLineage(db, n) || (ncbi && n in RootChildren(db))
    ensures r.Ok? ==> r.value.db.genomes == db.genomes
  {
    NoAnnotations(db.genomes);
    forall n
      ensures n in KeptNodes(db, ncbi) <==> OnLineage(db, n) || (ncbi && n in RootChildren(db))
    {
      LineageExactly(db, n);
    }
    var annotated := db.genomes.Values;
    if |annotated| == 0 then Err(InputError)
    else
      var kept := KeptNodes(db, ncbi);
      var cleanLinks := Links(db) - LinksFrom(db, kept);
      var cleanNodes := Ids(db) - kept;
      AnnotatedNotClean(db.genomes, cleanNodes);
      Ok(Cleaned(Prune(db, cleanLinks, cleanNodes, ncbi), kept, cleanLinks, cleanNodes))
  }

  /** Every node on an upward path of stored links that starts at an
      annotated node is in the lineage, and so is kept. */
  lemma {:induction false} PathKept(db: Store, path: seq<Link>)
    requires UpPath(db, path) && path[0].child in db.genomes.Values
    ensures forall i :: 0 <= i < |path| ==> path[i].child in Lineage(db) && path[i].parent in Lineage(db)
    decreases |path|
  {
    if |path| > 1 {
      var front := path[..|path| - 1];
      assert forall i :: 0 <= i < |front| ==> path[i] == front[i];
      PathKept(db, front);
      assert path[|path| - 1].child == front[|front| - 1].parent;
    }
  }

  /** The converse of `PathKept`: every node of the lineage is annotated or
      is reached from an annotated node by an upward path of stored links. */
  lemma LineagePath(db: Store, n: int)
    requires n in Lineage(db)
    ensures OnLineage(db, n)
  {
    var reached := set m | m in Lineage(db) && OnLineage(db, m);
    forall l | l in Links(db) && l.child in reached
      ensures l.parent in reached
    {
      if l.child in db.genomes.Values {
        assert UpPath(db, [l]);
      } else {
        var p: seq<Link> :| UpPath(db, p) && p[0].child in db.genomes.Values && p[|p| - 1].parent == l.child;
        var q := p + [l];
        assert forall i :: 0 <= i < |p| ==> q[i] == p[i];
        assert UpPath(db, q) && q[0].child in db.genomes.Values && q[|q| - 1].parent == l.parent;
      }
    }
    assert db.genomes.Values <= reached;
  }

  /** A node is in the lineage exactly when it lies on an annotated lineage. */
  lemma LineageExactly(db: Store, n: int)
    ensures n in Lineage(db) <==> OnLineage(db, n)
  {
    if n in Lineage(db) {
      LineagePath(db, n);
    } else if n !in db.genomes.Values && OnLineage(db, n) {
      var p: seq<Link> :| UpPath(db, p) && p[0].child in db.genomes.Values && p[|p| - 1].parent == n;
      PathKept(db, p);
    }
  }

  /** A stored link whose child is in the lineage survives the clean: its
      parent is in the lineage too, so it is not among the links to remove. */
  lemma LineageLinksSurvive(db: Store, ncbi: bool, l: Link)
    requires db.genomes != map[]
    requires l in Links(db) && l.child in Lineage(db)
    ensures l in Links(CleanDatabase(db, ncbi).value.db)
  {
  }
}

=== FILE: diff.dfy ===
/** The comparison `parse_modification` draws between the subtree below the
    anchor node in the primary store and the links a modification source
    proposes, and the source dispatch of the `ModifyTree` constructor. */
module Diff {
  import opened Results
  import opened Text
  import opened Store
  import opened Registry
  import opened Reconcile

  /** Python's `&` on two non-negative integers, bit by bit. */
  function BitAnd(a: nat, b: nat): nat
    decreases a
  {
    if a == 0 || b == 0 then 0
    else 2 * BitAnd(a / 2, b / 2) + (if a % 2 == 1 && b % 2 == 1 then 1 else 0)
  }

  /** A bool in an integer context. */
  function BoolInt(b: bool): nat {
    if b then 1 else 0
  }

  /** The guard `self.replace & len(existing) > 0` parses as
      `(self.replace & len(existing)) > 0`: it holds exactly when replace
      mode is on and the subtree has an ODD number of nodes. */
  lemma OddGate(replace: bool, n: nat)
    ensures BitAnd(BoolInt(replace), n) > 0 <==> replace && n % 2 == 1
  {
    if replace && n > 0 {
      assert BitAnd(1, n) == 2 * BitAnd(0, n / 2) + (if n % 2 == 1 then 1 else 0);
    }
  }

  /** Where the links of a modification come from. */
  datatype ModSource =
    | FromDatabase(foreign: ForeignDb)
    | FromFile(lines: seq<string>, sep: string)
    | OtherSource

  /** What `parse_modification` leaves in the object's attributes. */
  datatype Delta = Delta(
    session: Session,                    // the merge state after reading the source
    anchorId: int,                       // get_id(parent)
    parentLink: Link,                    // self.parent_link
    existingNodes: set<int>,             // self.existing_nodes
    existingLinks: set<Link>,            // self.existing_links
    oldNodes: set<int>,                  // self.old_nodes
    oldLinks: set<Link>,                 // self.old_links
    overlappingLinks: set<Link>,         // self.overlapping_links, also the return value
    nonOverlappingOldLinks: set<Link>,   // self.non_overlapping_old_links
    modGenomes: seq<(string, int)>,      // self.mod_genomes (empty for a file source)
    annotation: map<int, string>)        // self.dbmod_annotation (empty for a file source)

  /** `get_parent(get_id(parent))`: the anchor's id and its link to its
      parent, when the anchor exists and has one. */
  function AnchorLink(db: Store, anchor: string): (r: Option<(int, Link)>)
    ensures r.Some? <==> anchor in db.names && exists l :: l in Links(db) && l.child == db.names[anchor]
    ensures r.Some? ==> r.value.0 == db.names[anchor] && r.value.1 in Links(db) && r.value.1.child == r.value.0
  {
    match NodeId(db, anchor)
    case None => None
    case Some(a) =>
      match ParentLink(db, a)
      case None => None
      case Some(l) => Some((a, l))
  }

  /** The ids `set([get_id(parent)])` holds: the anchor's id, when it has one. */
  function AnchorIds(db: Store, anchor: string): (r: set<int>)
    ensures r == {} <==> anchor !in db.names
    ensures anchor in db.names ==> r == {db.names[anchor]}
  {
    match NodeId(db, anchor)
    case None => {}
    case Some(a) => {a}
  }

  /** The links of a modification source read into the cleared merge state,
      with the genome annotations and node names a database source brings. */
  function ReadSource(s: Session, parentLink: Link, src: ModSource): (r: Result<(Session, seq<(string, int)>, map<int, string>)>)
    ensures src.OtherSource? ==> r == Err(InputError)
    ensures r.Ok? ==> Grows(s, r.value.0)
    ensures r.Ok? && src.FromFile? ==> r.value.1 == [] && r.value.2 == map[]
    ensures r.Ok? && src.FromDatabase? ==> r.value.1 == src.foreign.genomes && r.value.2 == src.foreign.annotation
    ensures src.FromDatabase? ==>
      (r.Ok? <==> forall l :: l in src.foreign.links && l.0 != l.1 ==> Translatable(src.foreign, l))
    ensures src.FromFile? && r.Ok? ==> src.sep != "" && HeaderValid(Headers(src.lines, src.sep))
  {
    match src
    case FromDatabase(f) =>
      var t :- DatabaseMod(s, parentLink, f);
      Ok((t, f.genomes, f.annotation))
    case FromFile(lines, sep) =>
      var t :- FileMod(s, lines, sep);
      Ok((t, [], map[]))
    case OtherSource => Err(InputError)
  }

  /** The existing subtree split against what the source proposes: the
      old nodes are the existing ones the source does not mention, and the
      existing links fall into those the source repeats and those it drops. */
  ghost predicate Splits(d: Delta) {
    && d.oldNodes + (d.existingNodes * d.session.newNodes) == d.existingNodes
    && d.oldNodes !! d.session.newNodes
    && d.oldLinks + d.overlappingLinks == d.existingLinks
    && d.oldLinks !! d.session.newLinks
    && d.overlappingLinks <= d.session.newLinks
  }

  function Compare(t: Session, a: int, pl: Link, existing: set<int>, existingLinks: set<Link>,
                   nonOverlapping: set<Link>, genomes: seq<(string, int)>, ann: map<int, string>): (d: Delta)
    ensures Splits(d)
    ensures d.session == t && d.anchorId == a && d.parentLink == pl
    ensures d.existingNodes == existing && d.existingLinks == existingLinks
    ensures d.nonOverlappingOldLinks == nonOverlapping && d.modGenomes == genomes && d.annotation == ann
  {
    Delta(t, a, pl, existing, existingLinks,
          existing - t.newNodes, existingLinks - t.newLinks, existingLinks * t.newLinks,
          nonOverlapping, genomes, ann)
  }

  /** The links to remove besides the old ones: in replace mode with an
      odd-sized subtree, every stored link touching a node both existing
      and new, other than the anchor; otherwise none. */
  function NonOverlapping(t: Session, anchor: string, replace: bool, existing: set<int>): (r: set<Link>)
    ensures r <= Links(t.db)
    ensures r != {} ==> replace && |existing| % 2 == 1
    ensures replace && |existing| % 2 == 1 ==>
      forall l :: l in r <==> l in Links(t.db) && (l.parent in (existing * t.newNodes) - AnchorIds(t.db, anchor) ||
                                                 l.child in (existing * t.newNodes) - AnchorIds(t.db, anchor))
  {
    OddGate(replace, |existing|);
    if BitAnd(BoolInt(replace), |existing|) > 0
    then LinksTouching(t.db, (existing * t.newNodes) - AnchorIds(t.db, anchor))
    else {}
  }

  /** `parse_modification(input, modtype)`: find the anchor's parent link
      (`InputError` without one), collect the existing subtree and its links,
      read the source, and split the existing links into those the source
      repeats (overlapping) and those it does not (old). In replace mode
      with an odd-sized subtree, also collect every link touching a node
      that is both existing and new, other than the anchor itself. */
  function ParseModification(s: Session, anchor: string, src: ModSource): (r: Result<Delta>)
    ensures AnchorLink(s.db, anchor).None? ==> r == Err(InputError)
    ensures AnchorLink(s.db, anchor).Some? && src.OtherSource? ==> r == Err(InputError)
    ensures r.Ok? ==> AnchorLink(s.db, anchor) == Some((r.value.anchorId, r.value.parentLink))
    ensures r.Ok? ==>
      ReadSource(s.(newNodes := {}, newLinks := {}), r.value.parentLink, src) ==
      Ok((r.value.session, r.value.modGenomes, r.value.annotation))
    ensures AnchorLink(s.db, anchor).Some? ==>
      (r.Err? <==> ReadSource(s.(newNodes := {}, newLinks := {}), AnchorLink(s.db, anchor).value.1, src).Err?)
    ensures AnchorLink(s.db, anchor).Some? && r.Err? ==>
      r.error == ReadSource(s.(newNodes := {}, newLinks := {}), AnchorLink(s.db, anchor).value.1, src).error
    ensures r.Ok? ==> Grows(s.(newNodes := {}, newLinks := {}), r.value.session)
    ensures r.Ok? ==> Splits(r.value)
    ensures r.Ok? ==> ClosedBelow(s.db, r.value.anchorId, r.value.existingNodes)
    ensures r.Ok? ==> forall below :: ClosedBelow(s.db, r.value.anchorId, below) ==> r.value.existingNodes <= below
    ensures r.Ok? ==> r.value.existingLinks <= Links(s.db) && r.value.nonOverlappingOldLinks <= Links(s.db)
    ensures r.Ok? ==> forall l :: l in Links(s.db) && (l.parent in r.value.existingNodes || l.child in r.value.existingNodes) ==>
      l in r.value.existingLinks
    ensures r.Ok? ==> forall l :: l in r.value.existingLinks ==>
      l.parent in r.value.existingNodes || l.child in r.value.existingNodes
    ensures r.Ok? ==> (r.value.nonOverlappingOldLinks != {} ==> s.replace && |r.value.existingNodes| % 2 == 1)
    ensures r.Ok? && s.replace && |r.value.existingNodes| % 2 == 1 ==>
      var d := r.value;
      var ov := (d.existingNodes * d.session.newNodes) - AnchorIds(d.session.db, anchor);
      forall l :: l in d.nonOverlappingOldLinks <==> l in Links(s.db) && (l.parent in ov || l.child in ov)
  {
    match AnchorLink(s.db, anchor)
    case None => Err(InputError)
    case Some((a, pl)) =>
      var existing := Descendants(s.db, a);
      var existingLinks := if |existing| > 0 then LinksTouching(s.db, existing) else {};
      var read :- ReadSource(s.(newNodes := {}, newLinks := {}), pl, src);
      var t := read.0;
      Ok(Compare(t, a, pl, existing, existingLinks, NonOverlapping(t, anchor, s.replace, existing), read.1, read.2))
  }

  /** The first exception a source read raises when `clean_database` left
      the allocator unset, if any: the checks of `file_mod` on the
      separator and the header come first, then the first row or link that
      needs a new node. */
  function UnallocatedFailure(names: map<string, int>, src: ModSource): (r: Option<Error>)
    ensures src.FromDatabase? ==> r == FirstUnknownLink(names, src.foreign, src.foreign.links)
    ensures src.FromFile? && src.sep == "" ==> r == Some(ValueError)
    ensures src.FromFile? && src.sep != "" && !HeaderValid(Headers(src.lines, src.sep)) ==> r == Some(InputError)
    ensures src.OtherSource? ==> r == Some(InputError)
  {
    match src
    case FromDatabase(f) => FirstUnknownLink(names, f, f.links)
    case FromFile(lines, sep) =>
      if sep == "" then Some(ValueError)
      else if !HeaderValid(Headers(lines, sep)) then Some(InputError)
      else FirstUnknownRow(names, lines[1..], sep, Lower(Headers(lines, sep)[0]) == "child")
    case OtherSource => Some(InputError)
  }

  /** Nothing stops a read without an allocator exactly when the ordinary
      read succeeds and caches no new name. */
  lemma UnallocatedRead(s: Session, pl: Link, src: ModSource)
    ensures UnallocatedFailure(s.nodeDict, src).None? <==>
      ReadSource(s, pl, src).Ok? && ReadSource(s, pl, src).value.0.nodeDict.Keys == s.nodeDict.Keys
  {
    match src
    case FromDatabase(f) => UnallocatedDatabaseRead(s, pl, f);
    case FromFile(lines, sep) => UnallocatedFileRead(s, pl, lines, sep);
    case OtherSource =>
  }

  lemma UnallocatedDatabaseRead(s: Session, pl: Link, f: ForeignDb)
    ensures UnallocatedFailure(s.nodeDict, FromDatabase(f)).None? <==>
      ReadSource(s, pl, FromDatabase(f)).Ok? && ReadSource(s, pl, FromDatabase(f)).value.0.nodeDict.Keys == s.nodeDict.Keys
  {
    KnownLinksAllocateNothing(s, pl, f, f.links);
  }

  lemma UnallocatedFileRead(s: Session, pl: Link, lines: seq<string>, sep: string)
    ensures UnallocatedFailure(s.nodeDict, FromFile(lines, sep)).None? <==>
      ReadSource(s, pl, FromFile(lines, sep)).Ok? && ReadSource(s, pl, FromFile(lines, sep)).value.0.nodeDict.Keys == s.nodeDict.Keys
  {
    if sep != "" && HeaderValid(Headers(lines, sep)) {
      KnownRowsAllocateNothing(s, lines[1..], sep, Lower(Headers(lines, sep)[0]) == "child");
    }
  }

  /** When the ordinary read succeeds, what stops a read without an
      allocator is `add_node` itself: `AttributeError` in a file, `exit()`
      in a database. */
  lemma UnallocatedFailureKind(s: Session, pl: Link, src: ModSource)
    requires ReadSource(s, pl, src).Ok? && UnallocatedFailure(s.nodeDict, src).Some?
    ensures UnallocatedFailure(s.nodeDict, src).value == (if src.FromFile? then AttributeError else Exit)
  {
    match src
    case FromDatabase(f) =>
      TranslatableLinksFailInAddNode(s.nodeDict, f, f.links);
    case FromFile(lines, sep) =>
      var swap := Lower(Headers(lines, sep)[0]) == "child";
      assert FileRows(s, lines[1..], sep, swap).Ok?;
      AcceptedRowsFailInAddNode(s.nodeDict, lines[1..], sep, swap);
  }

  /** `parse_modification` when `clean_database` skipped the allocator
      set-up. It succeeds exactly when the ordinary parse succeeds without
      caching a new name, and then with the same delta; an ordinary parse
      that needs a new node fails here with `AttributeError` (a file) or
      `exit()` (a database). */
  function ParseUnallocated(s: Session, anchor: string, src: ModSource): (r: Result<Delta>)
    ensures AnchorLink(s.db, anchor).None? ==> r == Err(InputError)
    ensures AnchorLink(s.db, anchor).Some? && UnallocatedFailure(s.nodeDict, src).Some? ==>
      r == Err(UnallocatedFailure(s.nodeDict, src).value)
    ensures r.Ok? ==> r == ParseModification(s, anchor, src) && r.value.session.nodeDict.Keys == s.nodeDict.Keys
    ensures ParseModification(s, anchor, src).Ok? ==>
      (r.Ok? <==> ParseModification(s, anchor, src).value.session.nodeDict.Keys == s.nodeDict.Keys)
    ensures ParseModification(s, anchor, src).Ok? && r.Err? ==>
      r.error == (if src.FromFile? then AttributeError else Exit)
  {
    match AnchorLink(s.db, anchor)
    case None => Err(InputError)
    case Some((_, pl)) =>
      var s0 := s.(newNodes := {}, newLinks := {});
      UnallocatedRead(s0, pl, src);
      match UnallocatedFailure(s.nodeDict, src)
      case Some(e) =>
        assert ReadSource(s0, pl, src).Ok? ==> e == (if src.FromFile? then AttributeError else Exit) by {
          if ReadSource(s0, pl, src).Ok? { UnallocatedFailureKind(s0, pl, src); }
        }
        Err(e)
      case None => ParseModification(s, anchor, src)
  }

  // ---------------------------------------------------------------------
  // The constructor's choice of source

  /** The modification arguments of `ModifyTree(...)`. */
  datatype Request = Request(
    modDatabase: Option<ForeignDb>,
    modFile: Option<(seq<string>, string)>,
    updateGenomes: bool,
    cleanDatabase: bool)

  /** `ModifyTree.__init__` after its set-up: a modification database wins
      over a modification file; a genome update or a clean needs no source;
      anything else raises `InputError`. With `clean_database` set the
      source is parsed without an allocator (`ParseUnallocated`). */
  function Start(s: Session, anchor: string, req: Request): (r: Result<Option<Delta>>)
    ensures req.modDatabase.None? && req.modFile.None? ==>
      (r.Ok? <==> req.updateGenomes || req.cleanDatabase)
    ensures req.modDatabase.None? && req.modFile.None? && r.Err? ==> r.error == InputError
    ensures r.Ok? && r.value.None? <==> req.modDatabase.None? && req.modFile.None? && (req.updateGenomes || req.cleanDatabase)
    ensures req.modDatabase.Some? || req.modFile.Some? ==>
      var src := if req.modDatabase.Some? then FromDatabase(req.modDatabase.value)
                 else FromFile(req.modFile.value.0, req.modFile.value.1);
      r == (match (if req.cleanDatabase then ParseUnallocated(s, anchor, src) else ParseModification(s, anchor, src))
            case Ok(d) => Ok(Some(d))
            case Err(e) => Err(e))
    ensures req.modDatabase.None? && req.modFile.Some? && r.Ok? ==>
      r.value.Some? && r.value.value.modGenomes == []
    ensures req.cleanDatabase && r.Ok? && r.value.Some? ==> r.value.value.session.nodeDict.Keys == s.nodeDict.Keys
  {
    if req.modDatabase.Some? || req.modFile.Some? then
      var src := if req.modDatabase.Some? then FromDatabase(req.modDatabase.value)
                 else FromFile(req.modFile.value.0, req.modFile.value.1);
      var d :- if req.cleanDatabase then ParseUnallocated(s, anchor, src) else ParseModification(s, anchor, src);
      Ok(Some(d))
    else if req.updateGenomes || req.cleanDatabase then Ok(None)
    else Err(InputError)
  }

}

=== FILE: ncbi.dfy ===
/** The row-level logic of the NCBI taxonomy reader: `nodes.dmp` rows,
    `names.dmp` rows, the genome file name and FASTA header of a sequence
    file, and `accession2taxid` rows. Each reader is a fold over the lines
    of its file. */
module Ncbi {
  import opened Results
  import opened Text

  /** The column separator of the `.dmp` files. */
  const DmpSep: string := "\t|\t"

  /** A `.dmp` row stripped and split into its columns. */
  function DmpFields(row: string): seq<string> {
    Split(Strip(row), DmpSep)
  }

  // ---------------------------------------------------------------------
  // Joins of the first pieces

  lemma JoinTwo(parts: seq<string>, sep: string)
    requires |parts| >= 2
    ensures Join(parts, sep) == parts[0] + sep + parts[1] + (if |parts| == 2 then "" else sep + Join(parts[2..], sep))
  {
    assert parts[1..][1..] == parts[2..];
    assert parts[1..][0] == parts[1];
  }

  /** A one-character separator splits a string into one piece exactly when
      the string does not contain that character. */
  lemma SplitOnePiece(s: string, c: char)
    ensures |Split(s, [c])| == 1 <==> c !in s
  {
    var parts := Split(s, [c]);
    if |parts| >= 2 {
      JoinTwo(parts, [c]);
      assert s[|parts[0]|] == c;
    }
  }

  // ---------------------------------------------------------------------
  // read_nodes

  /** The rank dictionary of the reader: name -> code, and the next code
      `add_rank` hands out. */
  datatype RankTable = RankTable(codes: map<string, int>, next: int)

  /** A `tree` row the reader stores: child and parent as read, and a rank code. */
  datatype NodeLink = NodeLink(child: string, parent: string, rank: int)

  /** Look a rank name up, registering it with a fresh code on a miss. */
  function RankCode(t: RankTable, name: string): (r: (RankTable, int))
    ensures name in r.0.codes && r.0.codes[name] == r.1
    ensures forall n :: n in t.codes ==> n in r.0.codes && r.0.codes[n] == t.codes[n]
    ensures r.0.codes.Keys == t.codes.Keys + {name}
    ensures name !in t.codes ==> r.1 == t.next && r.0.next == t.next + 1
    ensures name in t.codes ==> r.0 == t
  {
    if name in t.codes then (t, t.codes[name])
    else (RankTable(t.codes[name := t.next], t.next + 1), t.next)
  }

  /** The rank name of a nodes row: field 2, with "None" read as "no rank". */
  function NodeRank(f: seq<string>): string
    requires |f| >= 3
  {
    if f[2] == "None" then "no rank" else f[2]
  }

  /** The link a split nodes row describes (`IndexError` with fewer than
      three fields), registering its rank name first when it is new. */
  function NodeOfFields(t: RankTable, f: seq<string>): (r: Result<(RankTable, NodeLink)>)
    ensures r.Err? <==> |f| < 3
    ensures r.Err? ==> r.error == IndexError
    ensures r.Ok? ==> Extends(t, r.value.0) && FieldsLinked(r.value.0, f, r.value.1)
    ensures r.Ok? ==> r.value.0.codes.Keys == t.codes.Keys + {NodeRank(f)}
  {
    if |f| < 3 then Err(IndexError)
    else
      var (t1, code) := RankCode(t, NodeRank(f));
      Ok((t1, NodeLink(f[0], f[1], code)))
  }

  /** One row of `read_nodes`: fields 0, 1 and 2 are child, parent and rank
      name; the stored rank is the code of the rank name, never "None". */
  function NodesRow(t: RankTable, row: string): (r: Result<(RankTable, NodeLink)>)
    ensures r.Err? <==> |DmpFields(row)| < 3
    ensures r.Err? ==> r.error == IndexError
    ensures r.Ok? ==> Extends(t, r.value.0) && RowLinked(r.value.0, row, r.value.1)
    ensures r.Ok? ==> NodeRank(DmpFields(row)) != "None"
    ensures r.Ok? ==> r.value.0.codes.Keys == t.codes.Keys + {NodeRank(DmpFields(row))}
  {
    NodeOfFields(t, DmpFields(row))
  }

  /** Every rank already in `t` keeps its code in `u`. */
  predicate Extends(t: RankTable, u: RankTable) {
    forall n :: n in t.codes ==> n in u.codes && u.codes[n] == t.codes[n]
  }

  lemma ExtendsTrans(a: RankTable, b: RankTable, c: RankTable)
    requires Extends(a, b) && Extends(b, c)
    ensures Extends(a, c)
  {
  }

  /** The stored link `l` is what the split row `f` says, with the rank code
      `t` gives the row's rank name. */
  predicate FieldsLinked(t: RankTable, f: seq<string>, l: NodeLink) {
    && |f| >= 3
    && l.child == f[0] && l.parent == f[1]
    && NodeRank(f) in t.codes && l.rank == t.codes[NodeRank(f)]
  }

  predicate RowLinked(t: RankTable, row: string, l: NodeLink) {
    FieldsLinked(t, DmpFields(row), l)
  }

  /** The links of a sequence of split nodes rows, in order. */
  function NodesOf(t: RankTable, fs: seq<seq<string>>): (r: Result<(RankTable, seq<NodeLink>)>)
    ensures r.Ok? <==> forall i :: 0 <= i < |fs| ==> |fs[i]| >= 3
    ensures r.Err? ==> r.error == IndexError
    ensures r.Ok? ==> |r.value.1| == |fs| && Extends(t, r.value.0)
    ensures r.Ok? ==> forall i :: 0 <= i < |fs| ==> FieldsLinked(r.value.0, fs[i], r.value.1[i])
    decreases |fs|
  {
    if |fs| == 0 then Ok((t, []))
    else
      match NodeOfFields(t, fs[0])
      case Err(e) => Err(e)
      case Ok((t1, l)) =>
        assert forall i :: 1 <= i < |fs| ==> fs[i] == fs[1..][i - 1];
        match NodesOf(t1, fs[1..])
        case Err(e) => Err(e)
        case Ok((t2, ls)) =>
          ExtendsTrans(t, t1, t2);
          var out := [l] + ls;
          assert FieldsLinked(t2, fs[0], out[0]);
          assert forall i :: 1 <= i < |fs| ==> FieldsLinked(t2, fs[i], out[i]) by {
            forall i | 1 <= i < |fs|
              ensures FieldsLinked(t2, fs[i], out[i])
            {
              assert out[i] == ls[i - 1];
            }
          }
          Ok((t2, out))
  }

  /** `read_nodes`: every row in file order; `IndexError` if some row has
      fewer than three fields. */
  function ReadNodes(t: RankTable, rows: seq<string>): (r: Result<(RankTable, seq<NodeLink>)>)
    ensures r.Ok? <==> forall i :: 0 <= i < |rows| ==> |DmpFields(rows[i])| >= 3
    ensures r.Err? ==> r.error == IndexError
    ensures r.Ok? ==> |r.value.1| == |rows| && Extends(t, r.value.0)
    ensures r.Ok? ==> forall i :: 0 <= i < |rows| ==> RowLinked(r.value.0, rows[i], r.value.1[i])
  {
    NodesOf(t, Image(rows, DmpFields))
  }

  // ---------------------------------------------------------------------
  // read_names

  /** The name class of a names row with more than three fields: field 3
      with trailing '|' and tab characters removed. */
  function NameClass(f: seq<string>): string
    requires |f| > 3
  {
    RStrip(f[3], {'|', '\t'})
  }

  /** A names row yields a node when it has no class field, or its class is
      "scientific name", or its class is empty (`not _type`). */
  predicate NameSelected(f: seq<string>) {
    |f| <= 3 || NameClass(f) == "scientific name" || NameClass(f) == ""
  }

  /** The node a names row yields: `(taxid, name)` from fields 0 and 1 when
      the row has them and is selected. */
  function NameOf(row: string): Option<(string, string)> {
    var f := DmpFields(row);
    if |f| >= 2 && NameSelected(f) then Some((f[0], f[1])) else None
  }

  /** The rows `read_names` adds a node for, in file order. */
  ghost function SelectedRows(rows: seq<string>): seq<string> {
    Present(rows, NameOf)
  }

  /** The present names of the rows are, in order, those of the selected rows. */
  lemma NamesInOrder(rows: seq<string>)
    ensures |Somes(Image(rows, NameOf))| == |SelectedRows(rows)|
    ensures forall j :: 0 <= j < |SelectedRows(rows)| ==>
      NameOf(SelectedRows(rows)[j]) == Some(Somes(Image(rows, NameOf))[j])
  {
    SomesInOrder(rows, NameOf);
  }

  /** One row of `read_names` (`IndexError` with fewer than two fields):
      the taxid and the name are the leading columns of the stripped row. */
  function NamesRow(row: string): (r: Result<Option<(string, string)>>)
    ensures r.Err? <==> |DmpFields(row)| < 2
    ensures r.Err? ==> r.error == IndexError
    ensures r.Ok? ==> (r.value.Some? <==> NameSelected(DmpFields(row))) && r.value == NameOf(row)
    ensures r.Ok? && r.value.Some? ==>
      var (taxid, name) := r.value.value;
      && |taxid| + |DmpSep| + |name| <= |Strip(row)|
      && Strip(row)[..|taxid| + |DmpSep| + |name|] == taxid + DmpSep + name
  {
    var f := DmpFields(row);
    if |f| < 2 then Err(IndexError)
    else if NameSelected(f) then
      JoinTwo(f, DmpSep);
      Ok(Some((f[0], f[1])))
    else Ok(None)
  }

  /** `read_names`: `IndexError` if some row has fewer than two fields,
      otherwise the nodes of the selected rows in file order. */
  function ReadNames(rows: seq<string>): (r: Result<seq<(string, string)>>)
    ensures r.Ok? <==> forall row :: row in rows ==> |DmpFields(row)| >= 2
    ensures r.Err? ==> r.error == IndexError
    ensures r.Ok? ==> |r.value| <= |rows|
    ensures r.Ok? ==> forall p :: p in r.value <==> exists row :: row in rows && NameOf(row) == Some(p)
    ensures r.Ok? && (forall row :: row in rows ==> NameOf(row).Some?) ==> |r.value| == |rows|
    ensures r.Ok? ==> |r.value| == |SelectedRows(rows)|
    ensures r.Ok? ==> forall j :: 0 <= j < |r.value| ==> NameOf(SelectedRows(rows)[j]) == Some(r.value[j])
  {
    NamesInOrder(rows);
    if exists row :: row in rows && |DmpFields(row)| < 2 then Err(IndexError)
    else
      var os := Image(rows, NameOf);
      Ok(Somes(os))
  }

  // ---------------------------------------------------------------------
  // parse_genebank_file and the file selection of parse_genomeid2taxid

  /** The genome id in a sequence file's name: its first two '_'-separated
      parts joined by '_' (`IndexError` when the name has no '_'). */
  function GenbankId(filename: string): (r: Result<string>)
    ensures r.Err? <==> '_' !in filename
    ensures r.Err? ==> r.error == IndexError
    ensures r.Ok? ==> |r.value| <= |filename| && filename[..|r.value|] == r.value
    ensures r.Ok? ==> |r.value| == |filename| || filename[|r.value|] == '_'
    ensures r.Ok? ==> exists k :: 0 <= k < |r.value| && r.value[k] == '_' && '_' !in r.value[..k] && '_' !in r.value[k + 1..]
  {
    var parts := Split(filename, "_");
    SplitOnePiece(filename, '_');
    if |parts| < 2 then Err(IndexError)
    else
      JoinTwo(parts, "_");
      var id := parts[0] + "_" + parts[1];
      assert id[..|parts[0]|] == parts[0] && id[|parts[0]| + 1..] == parts[1];
      Ok(id)
  }

  /** The sequence id of a FASTA header line: its first ' '-separated token
      with leading '>' characters removed. */
  function RefseqId(header: string): (r: string)
    ensures ' ' !in r
    ensures r == [] || r[0] != '>'
    ensures var k := |Split(header, " ")[0]| - |r|;
      && 0 <= k && k + |r| <= |header| && header[k..k + |r|] == r
      && forall i :: 0 <= i < k ==> header[i] == '>'
  {
    var token := Split(header, " ")[0];
    FirstTokenPrefix(header, ' ');
    var r := LStrip(token, {'>'});
    StrippedToken(header, token, r);
    r
  }

  /** A token that starts the header, less its leading '>' characters, sits
      in the header right after those characters. */
  lemma StrippedToken(header: string, token: string, r: string)
    requires |token| <= |header| && header[..|token|] == token && ' ' !in token
    requires |r| <= |token| && r == token[|token| - |r|..]
    requires forall i :: 0 <= i < |token| - |r| ==> token[i] == '>'
    ensures ' ' !in r
    ensures var k := |token| - |r|;
      && 0 <= k && k + |r| <= |header| && header[k..k + |r|] == r
      && forall i :: 0 <= i < k ==> header[i] == '>'
  {
    var k := |token| - |r|;
    assert header[k..k + |r|] == token[k..];
    forall i | 0 <= i < k
      ensures header[i] == '>'
    {
      assert header[i] == token[i];
    }
  }

  /** The first piece of a split is a prefix of the string, free of the separator. */
  lemma FirstTokenPrefix(s: string, c: char)
    ensures |Split(s, [c])[0]| <= |s| && s[..|Split(s, [c])[0]|] == Split(s, [c])[0]
    ensures c !in Split(s, [c])[0]
  {
    var parts := Split(s, [c]);
    if |parts| >= 2 {
      JoinTwo(parts, [c]);
    }
  }

  /** `filename.strip(".gz").endswith(".fna")`: the strip removes any of
      the characters '.', 'g' and 'z' from both ends, not a suffix. */
  predicate IsSequenceFile(filename: string) {
    EndsWith(StripChars(filename, GzChars), ".fna")
  }

  /** The characters `strip(".gz")` removes. */
  const GzChars: set<char> := {'.', 'g', 'z'}

  /** A FASTA name, compressed or not, is selected when its stem does not
      start with one of the stripped characters. */
  lemma {:induction false} FastaSelected(stem: string)
    requires |stem| > 0 && stem[0] !in GzChars
    ensures IsSequenceFile(stem + ".fna.gz") && IsSequenceFile(stem + ".fna")
  {
    var plain := stem + ".fna";
    assert (stem + ".fna.gz")[..|plain| + 2] == plain + ".g" && (plain + ".g")[..|plain| + 1] == plain + ".";
    assert (plain + ".")[..|plain|] == plain;
    assert RStrip(stem + ".fna.gz", GzChars) == RStrip(plain, GzChars) == plain;
  }

  /** The strip removes characters, not a suffix: a name ending in ".fna"
      whose whole stem is made of '.', 'g' and 'z' (say "g.fna") loses the
      stem and the dot and is not selected. */
  lemma {:induction false} StemEaten(stem: string)
    requires forall i :: 0 <= i < |stem| ==> stem[i] in GzChars
    ensures EndsWith(stem + ".fna", ".fna") && !IsSequenceFile(stem + ".fna")
  {
    var name := stem + ".fna";
    var l := LStrip(name, GzChars);
    assert name[|stem|] == '.' && name[|stem| + 1] == 'f';
  }

  /** A file found under the genomes directory: its name and the first line
      of its (decompressed) contents. */
  datatype SeqFile = SeqFile(name: string, header: string)

  /** The selected file `f` maps sequence id `k` to genome id `v`. */
  predicate Provides(f: SeqFile, k: string, v: string) {
    IsSequenceFile(f.name) && RefseqId(f.header) == k && GenbankId(f.name) == Ok(v)
  }

  /** The sequence-id -> genome-id table built from the selected files, in
      walk order; a later file with the same sequence id wins. */
  function ReadSequenceFiles(files: seq<SeqFile>): (r: Result<map<string, string>>)
    ensures r.Ok? <==> forall f :: f in files && IsSequenceFile(f.name) ==> '_' in f.name
    ensures r.Err? ==> r.error == IndexError
    ensures r.Ok? ==> forall f :: f in files && IsSequenceFile(f.name) ==> RefseqId(f.header) in r.value
    ensures r.Ok? ==> forall k :: k in r.value ==> exists f :: f in files && Provides(f, k, r.value[k])
    decreases |files|
  {
    if |files| == 0 then Ok(map[])
    else
      var last := files[|files| - 1];
      var front := files[..|files| - 1];
      assert forall f :: f in files <==> f in front || f == last;
      match ReadSequenceFiles(front)
      case Err(e) => Err(e)
      case Ok(m) =>
        if !IsSequenceFile(last.name) then Ok(m)
        else
          match GenbankId(last.name)
          case Err(e) => Err(e)
          case Ok(id) =>
            var key := RefseqId(last.header);
            var m' := m[key := id];
            assert Provides(last, key, id);
            assert forall k :: k in m' ==> exists f :: f in files && Provides(f, k, m'[k]) by {
              forall k | k in m'
                ensures exists f :: f in files && Provides(f, k, m'[k])
              {
                if k != key {
                  var f :| f in front && Provides(f, k, m[k]);
                  assert f in files;
                }
              }
            }
            Ok(m')
  }

  // ---------------------------------------------------------------------
  // parse_genomeid2taxid

  /** The tab-separated fields of an accession table row. */
  function TabFields(row: string): seq<string> {
    Split(row, "\t")
  }

  /** The genome a split accession row adds: the genome id of its sequence
      id (field 1) and its taxid (field 2), or nothing when the sequence id
      is not in the table. */
  predicate Matched(table: map<string, string>, f: seq<string>) {
    |f| >= 3 && f[1] in table
  }

  /** One data row of the accession table: tab fields 1 and 2 are the
      sequence id and the taxid (`ValueError` with fewer than three fields;
      the row is not stripped, and a blank row is not skipped, since the
      source compares a bytes row with a str). A sequence id missing from
      the table yields nothing. */
  function AccessionRow(table: map<string, string>, row: string): (r: Result<Option<(string, string)>>)
    ensures r.Err? <==> |TabFields(row)| < 3
    ensures r.Err? ==> r.error == ValueError
    ensures r.Ok? ==> (r.value.Some? <==> Matched(table, TabFields(row)))
    ensures r.Ok? && r.value.Some? ==>
      r.value.value.0 in table.Values && r.value.value.0 == table[TabFields(row)[1]] && r.value.value.1 == TabFields(row)[2]
  {
    var f := TabFields(row);
    if |f| < 3 then Err(ValueError)
    else if f[1] in table then Ok(Some((table[f[1]], f[2])))
    else Ok(None)
  }

  /** The genome a split accession row adds, if its sequence id is known. */
  function PairOf(table: map<string, string>, f: seq<string>): Option<(string, string)> {
    if Matched(table, f) then Some((table[f[1]], f[2])) else None
  }

  /** The genomes the rows add, read as a filter over the rows in order. */
  ghost function Pairs(table: map<string, string>, fs: seq<seq<string>>): seq<(string, string)> {
    Somes(Image(fs, f => PairOf(table, f)))
  }

  /** The positions of the rows whose sequence id is not in the table. */
  ghost function Misses(table: map<string, string>, fs: seq<seq<string>>): set<int> {
    Positions(fs, f => !Matched(table, f))
  }

  lemma PairsCons(table: map<string, string>, fs: seq<seq<string>>)
    requires |fs| > 0
    ensures Pairs(table, fs) == (if Matched(table, fs[0]) then [(table[fs[0][1]], fs[0][2])] else []) + Pairs(table, fs[1..])
  {
    SomesImageCons(fs, f => PairOf(table, f));
  }

  lemma MissesCons(table: map<string, string>, fs: seq<seq<string>>)
    requires |fs| > 0
    ensures |Misses(table, fs)| == |Misses(table, fs[1..])| + (if Matched(table, fs[0]) then 0 else 1)
  {
    PositionsCons(fs, f => !Matched(table, f));
  }

  /** The genomes that split accession rows add, in order, and the number
      of rows whose sequence id is not in the table. */
  function AccessionsOf(table: map<string, string>, fs: seq<seq<string>>): (r: Result<(seq<(string, string)>, nat)>)
    ensures r.Ok? <==> forall i :: 0 <= i < |fs| ==> |fs[i]| >= 3
    ensures r.Err? ==> r.error == ValueError
    ensures r.Ok? ==> |r.value.0| + r.value.1 == |fs|
    ensures r.Ok? ==> forall p :: p in r.value.0 ==> exists f :: f in fs && Matched(table, f) && p == (table[f[1]], f[2])
    ensures r.Ok? ==> (r.value.1 == 0 <==> forall i :: 0 <= i < |fs| ==> Matched(table, fs[i]))
    ensures r.Ok? ==> r.value.0 == Pairs(table, fs) && r.value.1 == |Misses(table, fs)|
    decreases |fs|
  {
    if |fs| == 0 then Ok(([], 0))
    else
      var f := fs[0];
      if |f| < 3 then Err(ValueError)
      else
        PairsCons(table, fs);
        MissesCons(table, fs);
        PairsFrom(table, fs);
        MissesNone(table, fs);
        match AccessionsOf(table, fs[1..])
        case Err(e) =>
          assert forall i :: 1 <= i < |fs| ==> fs[i] == fs[1..][i - 1];
          Err(e)
        case Ok((gs, n)) =>
          if f[1] in table then Ok(([(table[f[1]], f[2])] + gs, n)) else Ok((gs, n + 1))
  }

  /** Every genome the rows add comes from a matching row. */
  lemma PairsFrom(table: map<string, string>, fs: seq<seq<string>>)
    ensures forall p :: p in Pairs(table, fs) ==> exists f :: f in fs && Matched(table, f) && p == (table[f[1]], f[2])
  {
    forall p | p in Pairs(table, fs)
      ensures exists f :: f in fs && Matched(table, f) && p == (table[f[1]], f[2])
    {
      var f :| f in fs && PairOf(table, f) == Some(p);
    }
  }

  /** No row misses exactly when every row matches. */
  lemma MissesNone(table: map<string, string>, fs: seq<seq<string>>)
    ensures |Misses(table, fs)| == 0 <==> forall i :: 0 <= i < |fs| ==> Matched(table, fs[i])
  {
    if exists i :: 0 <= i < |fs| && !Matched(table, fs[i]) {
      var i :| 0 <= i < |fs| && !Matched(table, fs[i]);
      assert i in Misses(table, fs);
    } else {
      assert Misses(table, fs) == {};
    }
  }

  /** The accession rows read in order: `ValueError` if some row has fewer
      than three tab fields; otherwise the added genomes and the misses
      together account for every row. */
  function Accessions(table: map<string, string>, rows: seq<string>): (r: Result<(seq<(string, string)>, nat)>)
    ensures r.Ok? <==> forall i :: 0 <= i < |rows| ==> |TabFields(rows[i])| >= 3
    ensures r.Err? ==> r.error == ValueError
    ensures r.Ok? ==> |r.value.0| + r.value.1 == |rows|
    ensures r.Ok? ==> forall p :: p in r.value.0 ==> p.0 in table.Values
    ensures r.Ok? ==> (r.value.1 == 0 <==> forall i :: 0 <= i < |rows| ==> Matched(table, TabFields(rows[i])))
    ensures r.Ok? ==> r.value.0 == Pairs(table, Image(rows, TabFields))
    ensures r.Ok? ==> r.value.1 == |Misses(table, Image(rows, TabFields))|
  {
    var fs := Image(rows, TabFields);
    var r := AccessionsOf(table, fs);
    assert r.Ok? ==> forall p :: p in r.value.0 ==> p.0 in table.Values by {
      if r.Ok? {
        forall p | p in r.value.0
          ensures p.0 in table.Values
        {
          var f :| f in fs && Matched(table, f) && p == (table[f[1]], f[2]);
        }
      }
    }
    r
  }

  /** The lines after the header line. */
  function DataRows(lines: seq<string>): (r: seq<string>)
    ensures |lines| > 0 ==> lines == [lines[0]] + r
    ensures |lines| == 0 ==> r == []
  {
    if |lines| == 0 then [] else lines[1..]
  }

  /** `parse_genomeid2taxid`: build the sequence-id table from the genome
      files, then refuse an annotation file whose name does not end in
      "accession2taxid.gz" (`TypeError`, before any row is read), then skip
      the header line and read the data rows. */
  function ParseGenomeid2taxid(files: seq<SeqFile>, annotationFile: string, lines: seq<string>): (r: Result<(map<string, string>, seq<(string, string)>, nat)>)
    ensures !EndsWith(annotationFile, "accession2taxid.gz") ==> r.Err?
    ensures r.Err? ==> r.error == IndexError || r.error == TypeError || r.error == ValueError
    ensures r == Err(TypeError) ==> !EndsWith(annotationFile, "accession2taxid.gz")
    ensures r.Ok? ==> forall f :: f in files && IsSequenceFile(f.name) ==> RefseqId(f.header) in r.value.0
    ensures r.Ok? ==> forall k :: k in r.value.0 ==> exists f :: f in files && Provides(f, k, r.value.0[k])
    ensures r.Ok? ==> |r.value.1| + r.value.2 == (if |lines| == 0 then 0 else |lines| - 1)
    ensures r.Ok? ==> forall p :: p in r.value.1 ==> p.0 in r.value.0.Values
    ensures r.Ok? ==> r.value.1 == Pairs(r.value.0, Image(DataRows(lines), TabFields))
    ensures r.Ok? ==> r.value.2 == |Misses(r.value.0, Image(DataRows(lines), TabFields))|
  {
    var table :- ReadSequenceFiles(files);
    if !EndsWith(annotationFile, "accession2taxid.gz") then Err(TypeError)
    else
      var (genomes, missed) :- Accessions(table, DataRows(lines));
      Ok((table, genomes, missed))
  }
}

=== FILE: reconcile.dfy ===
/** Reading a modification source into the primary store's name space:
    `_parse_new_links` (one parent/child/rank triple), `file_mod` (a delta
    file with a header line) and `database_mod` (the links of a second
    taxonomy store, joined by node name), plus the unused `add_link`. */
module Reconcile {
  import opened Results
  import opened Text
  import opened Store
  import opened Registry

  /** The merge state only grows from `s` to `t`: cached names keep their
      ids, rank keys stay, the new-node and new-link sets only gain members,
      and the store's links, genomes and mode are untouched. */
  ghost predicate Grows(s: Session, t: Session) {
    && (forall e :: e in s.nodeDict ==> e in t.nodeDict && t.nodeDict[e] == s.nodeDict[e])
    && s.rank.Keys <= t.rank.Keys
    && s.newNodes <= t.newNodes && s.newLinks <= t.newLinks
    && t.replace == s.replace
    && Links(t.db) == Links(s.db) && t.db.genomes == s.db.genomes
    && s.db.nextRank <= t.db.nextRank
  }

  lemma GrowsTrans(a: Session, b: Session, c: Session)
    requires Grows(a, b) && Grows(b, c)
    ensures Grows(a, c)
  {
  }

  /** What one `_parse_new_links(parent, child, rank)` call leaves behind in
      `t`, starting from `s`: both names resolved, both ids in `new_nodes`,
      exactly one new triple, and nothing else of the merge state changed. */
  ghost predicate NewLinkAdded(s: Session, t: Session, parent: string, child: string, rank: RankKey) {
    && Grows(s, t)
    && parent in t.nodeDict && child in t.nodeDict && rank in t.rank
    && t.nodeDict.Keys == s.nodeDict.Keys + {parent, child}
    && t.newNodes == s.newNodes + {t.nodeDict[parent], t.nodeDict[child]}
    && t.newLinks == s.newLinks + {Link(t.nodeDict[parent], t.nodeDict[child], t.rank[rank])}
  }

  /** `_parse_new_links`: raise `InputError` when the child is empty but the
      parent is not (the source tests `not child and parent`); otherwise
      get-or-create both names and the rank and record the link. */
  function ParseNewLinks(s: Session, parent: string, child: string, rank: RankKey): (r: Result<Session>)
    ensures r.Err? <==> child == "" && parent != ""
    ensures r.Err? ==> r.error == InputError
    ensures r.Ok? ==> NewLinkAdded(s, r.value, parent, child, rank)
    ensures r.Ok? ==> forall j :: j in s.rank && j != r.value.rank[rank] ==> j in r.value.rank && r.value.rank[j] == s.rank[j]
  {
    if child == "" && parent != "" then Err(InputError)
    else
      var (s1, p) := GetId(s, parent);
      var s2 := s1.(newNodes := s1.newNodes + {p});
      var (s3, c) := GetId(s2, child);
      var s4 := s3.(newNodes := s3.newNodes + {c});
      var (s5, k) := AddRank(s4, rank);
      Ok(s5.(newLinks := s5.newLinks + {Link(p, c, k)}))
  }

  /** With fresh rank codes and a rank key the backend already issued (or a
      name), `_parse_new_links` keeps the codes fresh and rebinds no rank entry. */
  lemma ParseNewLinksKeepsRanks(s: Session, parent: string, child: string, rank: RankKey)
    requires RanksFresh(s) && Below(rank, s.db.nextRank)
    requires ParseNewLinks(s, parent, child, rank).Ok?
    ensures var t := ParseNewLinks(s, parent, child, rank).value;
      && RanksFresh(t)
      && (forall j :: j in s.rank ==> j in t.rank && t.rank[j] == s.rank[j])
  {
    var (s1, p) := GetId(s, parent);
    var s2 := s1.(newNodes := s1.newNodes + {p});
    var (s3, c) := GetId(s2, child);
    var s4 := s3.(newNodes := s3.newNodes + {c});
    AddRankKeeps(s4, rank);
  }

  // ---------------------------------------------------------------------
  // file_mod

  /** The header fields: the first line, stripped and split. An empty file
      reads as an empty header line. */
  function Headers(lines: seq<string>, sep: string): seq<string>
    requires |sep| > 0
  {
    Split(Strip(if |lines| == 0 then "" else lines[0]), sep)
  }

  /** Two or three columns, the first of them "parent" or "child" in any case. */
  predicate HeaderValid(h: seq<string>) {
    2 <= |h| <= 3 && (Lower(h[0]) == "child" || Lower(h[0]) == "parent")
  }

  /** A data row: stripped and split; a two-field row gets the rank "-". */
  function RowFields(row: string, sep: string): seq<string>
    requires |sep| > 0
  {
    var f := Split(Strip(row), sep);
    if |f| == 2 then f + ["-"] else f
  }

  /** The parent and child names of a three-field row, in that order. */
  function RowParent(f: seq<string>, swap: bool): string
    requires |f| == 3
  {
    if swap then f[1] else f[0]
  }

  function RowChild(f: seq<string>, swap: bool): string
    requires |f| == 3
  {
    if swap then f[0] else f[1]
  }

  /** A row `file_mod` gets through: blank, or three fields (after padding)
      without an empty child next to a non-empty parent. */
  predicate RowAccepted(row: string, sep: string, swap: bool)
    requires |sep| > 0
  {
    Strip(row) == "" ||
    (var f := RowFields(row, sep);
     |f| == 3 && !(RowChild(f, swap) == "" && RowParent(f, swap) != ""))
  }

  /** The fields of a non-blank data row: unpack exactly three fields
      (`ValueError` otherwise); resolve the rank name to its code; swap the
      columns under a "child" header; hand the triple on. */
  function FieldsRow(s: Session, f: seq<string>, swap: bool): (r: Result<Session>)
    ensures r.Ok? <==> |f| == 3 && !(RowChild(f, swap) == "" && RowParent(f, swap) != "")
    ensures r.Err? ==> r.error == (if |f| != 3 then ValueError else InputError)
    ensures r.Ok? ==>
      var (s1, code) := AddRank(s, Name(f[2]));
      NewLinkAdded(s1, r.value, RowParent(f, swap), RowChild(f, swap), code)
  {
    if |f| != 3 then Err(ValueError)
    else
      var (s1, code) := AddRank(s, Name(f[2]));
      ParseNewLinks(s1, RowParent(f, swap), RowChild(f, swap), code)
  }

  /** One data row of `file_mod`: skip a blank row, read the fields of any other. */
  function FileRow(s: Session, row: string, sep: string, swap: bool): (r: Result<Session>)
    requires |sep| > 0
    ensures Strip(row) == "" ==> r == Ok(s)
    ensures r.Ok? <==> RowAccepted(row, sep, swap)
    ensures r.Err? ==> r.error == (if |RowFields(row, sep)| != 3 then ValueError else InputError)
    ensures r.Ok? && Strip(row) != "" ==>
      var f := RowFields(row, sep);
      var (s1, code) := AddRank(s, Name(f[2]));
      NewLinkAdded(s1, r.value, RowParent(f, swap), RowChild(f, swap), code)
  {
    if Strip(row) == "" then Ok(s)
    else FieldsRow(s, RowFields(row, sep), swap)
  }

  /** The data rows of `file_mod`, in file order; the first failing row ends
      it. With fresh rank codes, the links it collects are exactly the link
      of each non-blank row and its nodes exactly both ends of each. */
  function FileRows(s: Session, rows: seq<string>, sep: string, swap: bool): (r: Result<Session>)
    requires |sep| > 0
    ensures r.Ok? <==> forall row :: row in rows ==> RowAccepted(row, sep, swap)
    ensures r.Err? ==> r.error == ValueError || r.error == InputError
    ensures r.Ok? ==> Grows(s, r.value)
    ensures r.Ok? ==> forall row :: row in rows ==> RowNamed(r.value, row, sep, swap)
    ensures r.Ok? && RanksFresh(s) ==>
      RanksFresh(r.value) && forall j :: j in s.rank ==> j in r.value.rank && r.value.rank[j] == s.rank[j]
    ensures r.Ok? && RanksFresh(s) ==> forall row :: row in rows && Strip(row) != "" ==> RowReady(r.value, row, sep, swap)
    ensures r.Ok? && RanksFresh(s) ==> r.value.newLinks == s.newLinks + RowLinks(r.value, rows, sep, swap)
    ensures r.Ok? && RanksFresh(s) ==> r.value.newNodes == s.newNodes + RowNodes(r.value, rows, sep, swap)
    decreases |rows|
  {
    if |rows| == 0 then Ok(s)
    else
      match FileRow(s, rows[0], sep, swap)
      case Err(e) => Err(e)
      case Ok(s1) =>
        var r := FileRows(s1, rows[1..], sep, swap);
        assert forall row :: row in rows <==> row == rows[0] || row in rows[1..];
        if r.Ok? then
          FileRowsCons(s, rows, sep, swap, s1, r.value);
          r
        else r
  }

  /** The facts `FileRows` states for the rows after the first carry over
      to all of them once the first row's effect is added. */
  lemma FileRowsCons(s: Session, rows: seq<string>, sep: string, swap: bool, s1: Session, t: Session)
    requires |sep| > 0 && |rows| > 0 && FileRow(s, rows[0], sep, swap) == Ok(s1)
    requires Grows(s1, t) && forall row :: row in rows[1..] ==> RowNamed(t, row, sep, swap)
    requires RanksFresh(s1) ==>
      RanksFresh(t) && forall j :: j in s1.rank ==> j in t.rank && t.rank[j] == s1.rank[j]
    requires RanksFresh(s1) ==> forall row :: row in rows[1..] && Strip(row) != "" ==> RowReady(t, row, sep, swap)
    requires RanksFresh(s1) ==> t.newLinks == s1.newLinks + RowLinks(t, rows[1..], sep, swap)
    requires RanksFresh(s1) ==> t.newNodes == s1.newNodes + RowNodes(t, rows[1..], sep, swap)
    ensures Grows(s, t) && forall row :: row in rows ==> RowNamed(t, row, sep, swap)
    ensures RanksFresh(s) ==>
      RanksFresh(t) && forall j :: j in s.rank ==> j in t.rank && t.rank[j] == s.rank[j]
    ensures RanksFresh(s) ==> forall row :: row in rows && Strip(row) != "" ==> RowReady(t, row, sep, swap)
    ensures RanksFresh(s) ==> t.newLinks == s.newLinks + RowLinks(t, rows, sep, swap)
    ensures RanksFresh(s) ==> t.newNodes == s.newNodes + RowNodes(t, rows, sep, swap)
  {
    assert forall row :: row in rows <==> row == rows[0] || row in rows[1..];
    GrowsTrans(s, s1, t);
    FileRowNamed(s, rows[0], sep, swap, s1, t);
    if RanksFresh(s) {
      FileRowKeepsRanks(s, rows[0], sep, swap, s1);
      FileRowLink(s, rows[0], sep, swap, s1, t);
      FileRowsStep(s, rows, sep, swap, s1, t);
    }
  }

  /** Both names of a three-field row are known in `t`, and its rank name
      reaches a key of `t` after the two lookups `file_mod` and
      `_parse_new_links` make. */
  ghost predicate FieldsReady(t: Session, f: seq<string>, swap: bool) {
    && |f| == 3
    && RowParent(f, swap) in t.nodeDict && RowChild(f, swap) in t.nodeDict
    && Name(f[2]) in t.rank && t.rank[Name(f[2])] in t.rank
  }

  /** A non-blank row whose fields are ready in `t`. */
  ghost predicate RowReady(t: Session, row: string, sep: string, swap: bool)
    requires |sep| > 0
  {
    Strip(row) != "" && FieldsReady(t, RowFields(row, sep), swap)
  }

  /** The triple a row's fields stand for in state `t`. */
  ghost function RowLink(t: Session, f: seq<string>, swap: bool): Link
    requires FieldsReady(t, f, swap)
  {
    Link(t.nodeDict[RowParent(f, swap)], t.nodeDict[RowChild(f, swap)], t.rank[t.rank[Name(f[2])]])
  }

  /** The triples of the ready rows in state `t`. */
  ghost function RowLinks(t: Session, rows: seq<string>, sep: string, swap: bool): set<Link>
    requires |sep| > 0
  {
    set row | row in rows && RowReady(t, row, sep, swap) :: RowLink(t, RowFields(row, sep), swap)
  }

  /** Both node ids of the ready rows in state `t`. */
  ghost function RowNodes(t: Session, rows: seq<string>, sep: string, swap: bool): set<int>
    requires |sep| > 0
  {
    (set row | row in rows && RowReady(t, row, sep, swap) :: t.nodeDict[RowParent(RowFields(row, sep), swap)]) +
    (set row | row in rows && RowReady(t, row, sep, swap) :: t.nodeDict[RowChild(RowFields(row, sep), swap)])
  }

  lemma RowLinksCons(t: Session, rows: seq<string>, sep: string, swap: bool)
    requires |sep| > 0 && |rows| > 0
    ensures RowLinks(t, rows, sep, swap) == RowLinks(t, rows[1..], sep, swap) +
      (if RowReady(t, rows[0], sep, swap) then {RowLink(t, RowFields(rows[0], sep), swap)} else {})
  {
    var all := RowLinks(t, rows, sep, swap);
    var rest := RowLinks(t, rows[1..], sep, swap);
    forall x | x in all
      ensures x in rest || (RowReady(t, rows[0], sep, swap) && x == RowLink(t, RowFields(rows[0], sep), swap))
    {
      var row :| row in rows && RowReady(t, row, sep, swap) && x == RowLink(t, RowFields(row, sep), swap);
      if row != rows[0] {
        assert row in rows[1..];
      }
    }
    forall x | x in rest
      ensures x in all
    {
      var row :| row in rows[1..] && RowReady(t, row, sep, swap) && x == RowLink(t, RowFields(row, sep), swap);
      assert row in rows;
    }
    if RowReady(t, rows[0], sep, swap) {
      assert RowLink(t, RowFields(rows[0], sep), swap) in all;
    }
  }

  lemma RowNodesCons(t: Session, rows: seq<string>, sep: string, swap: bool)
    requires |sep| > 0 && |rows| > 0
    ensures RowNodes(t, rows, sep, swap) == RowNodes(t, rows[1..], sep, swap) +
      (if RowReady(t, rows[0], sep, swap)
       then {t.nodeDict[RowParent(RowFields(rows[0], sep), swap)], t.nodeDict[RowChild(RowFields(rows[0], sep), swap)]}
       else {})
  {
    assert forall row :: row in rows <==> row == rows[0] || row in rows[1..];
  }

  /** One step of `FileRows`: what the first row adds joined with what the
      rest of the rows add is what all of them add. */
  lemma FileRowsStep(s: Session, rows: seq<string>, sep: string, swap: bool, s1: Session, t: Session)
    requires |sep| > 0 && |rows| > 0
    requires Strip(rows[0]) != "" ==> RowReady(t, rows[0], sep, swap)
    requires s1.newLinks == s.newLinks +
      (if Strip(rows[0]) != "" then {RowLink(t, RowFields(rows[0], sep), swap)} else {})
    requires s1.newNodes == s.newNodes +
      (if Strip(rows[0]) != ""
       then {t.nodeDict[RowParent(RowFields(rows[0], sep), swap)], t.nodeDict[RowChild(RowFields(rows[0], sep), swap)]}
       else {})
    requires forall row :: row in rows[1..] && Strip(row) != "" ==> RowReady(t, row, sep, swap)
    requires t.newLinks == s1.newLinks + RowLinks(t, rows[1..], sep, swap)
    requires t.newNodes == s1.newNodes + RowNodes(t, rows[1..], sep, swap)
    ensures forall row :: row in rows && Strip(row) != "" ==> RowReady(t, row, sep, swap)
    ensures t.newLinks == s.newLinks + RowLinks(t, rows, sep, swap)
    ensures t.newNodes == s.newNodes + RowNodes(t, rows, sep, swap)
  {
    assert forall row :: row in rows <==> row == rows[0] || row in rows[1..];
    RowLinksStep(s.newLinks, s1.newLinks, t, rows, sep, swap);
    RowNodesStep(s.newNodes, s1.newNodes, t, rows, sep, swap);
  }

  lemma RowLinksStep(before: set<Link>, mid: set<Link>, t: Session, rows: seq<string>, sep: string, swap: bool)
    requires |sep| > 0 && |rows| > 0
    requires Strip(rows[0]) != "" ==> RowReady(t, rows[0], sep, swap)
    requires mid == before + (if Strip(rows[0]) != "" then {RowLink(t, RowFields(rows[0], sep), swap)} else {})
    requires t.newLinks == mid + RowLinks(t, rows[1..], sep, swap)
    ensures t.newLinks == before + RowLinks(t, rows, sep, swap)
  {
    RowLinksCons(t, rows, sep, swap);
  }

  lemma RowNodesStep(before: set<int>, mid: set<int>, t: Session, rows: seq<string>, sep: string, swap: bool)
    requires |sep| > 0 && |rows| > 0
    requires Strip(rows[0]) != "" ==> RowReady(t, rows[0], sep, swap)
    requires mid == before +
      (if Strip(rows[0]) != ""
       then {t.nodeDict[RowParent(RowFields(rows[0], sep), swap)], t.nodeDict[RowChild(RowFields(rows[0], sep), swap)]}
       else {})
    requires t.newNodes == mid + RowNodes(t, rows[1..], sep, swap)
    ensures t.newNodes == before + RowNodes(t, rows, sep, swap)
  {
    RowNodesCons(t, rows, sep, swap);
  }

  /** With fresh rank codes, one data row keeps them fresh and rebinds no
      rank entry. */
  lemma FileRowKeepsRanks(s: Session, row: string, sep: string, swap: bool, s1: Session)
    requires |sep| > 0 && RanksFresh(s) && FileRow(s, row, sep, swap) == Ok(s1)
    ensures RanksFresh(s1) && forall j :: j in s.rank ==> j in s1.rank && s1.rank[j] == s.rank[j]
  {
    if Strip(row) != "" {
      var f := RowFields(row, sep);
      var (sA, code) := AddRank(s, Name(f[2]));
      AddRankKeeps(s, Name(f[2]));
      ParseNewLinksKeepsRanks(sA, RowParent(f, swap), RowChild(f, swap), code);
    }
  }

  /** The link and nodes one data row adds, read in any later state `t`
      that keeps the row's names and rank entries. */
  lemma FileRowLink(s: Session, row: string, sep: string, swap: bool, s1: Session, t: Session)
    requires |sep| > 0 && RanksFresh(s) && FileRow(s, row, sep, swap) == Ok(s1)
    requires Grows(s1, t) && forall j :: j in s1.rank ==> j in t.rank && t.rank[j] == s1.rank[j]
    ensures Strip(row) != "" ==> RowReady(t, row, sep, swap)
    ensures s1.newLinks == s.newLinks +
      (if Strip(row) != "" then {RowLink(t, RowFields(row, sep), swap)} else {})
    ensures s1.newNodes == s.newNodes +
      (if Strip(row) != ""
       then {t.nodeDict[RowParent(RowFields(row, sep), swap)], t.nodeDict[RowChild(RowFields(row, sep), swap)]}
       else {})
  {
    if Strip(row) != "" {
      var f := RowFields(row, sep);
      var (sA, code) := AddRank(s, Name(f[2]));
      AddRankKeeps(s, Name(f[2]));
      ParseNewLinksKeepsRanks(sA, RowParent(f, swap), RowChild(f, swap), code);
      assert s1.rank[Name(f[2])] == code && code in s1.rank;
      assert FieldsReady(t, f, swap);
    }
  }

  /** Both names of a non-blank three-field row are known in `t`. */
  predicate RowNamed(t: Session, row: string, sep: string, swap: bool)
    requires |sep| > 0
  {
    Strip(row) != "" && |RowFields(row, sep)| == 3 ==>
      RowParent(RowFields(row, sep), swap) in t.nodeDict && RowChild(RowFields(row, sep), swap) in t.nodeDict
  }

  /** The names of an accepted row stay known in every later state. */
  lemma FileRowNamed(s: Session, row: string, sep: string, swap: bool, s1: Session, t: Session)
    requires |sep| > 0 && FileRow(s, row, sep, swap) == Ok(s1) && Grows(s1, t)
    ensures RowNamed(t, row, sep, swap)
  {
  }

  /** `file_mod`: validate the header, then read the data rows, swapping the
      two name columns when the first header is "child". */
  function FileMod(s: Session, lines: seq<string>, sep: string): (r: Result<Session>)
    ensures sep == "" ==> r == Err(ValueError)
    ensures sep != "" && !HeaderValid(Headers(lines, sep)) ==> r == Err(InputError)
    ensures r.Ok? ==> sep != "" && HeaderValid(Headers(lines, sep))
    ensures sep != "" && HeaderValid(Headers(lines, sep)) ==>
      r == FileRows(s, lines[1..], sep, Lower(Headers(lines, sep)[0]) == "child")
  {
    if sep == "" then Err(ValueError)
    else
      var h := Headers(lines, sep);
      if |h| < 2 || |h| > 3 then Err(InputError)
      else if Lower(h[0]) == "child" then FileRows(s, lines[1..], sep, true)
      else if Lower(h[0]) == "parent" then FileRows(s, lines[1..], sep, false)
      else Err(InputError)
  }

  /** A data row under a "child" header links its SECOND column as parent of
      its FIRST: the columns are swapped before any name is resolved. */
  lemma ChildHeaderSwaps(s: Session, f: seq<string>)
    requires |f| == 3 && !(f[0] == "" && f[1] != "")
    ensures var t := FieldsRow(s, f, true).value;
      f[1] in t.nodeDict && f[0] in t.nodeDict &&
      exists k :: Link(t.nodeDict[f[1]], t.nodeDict[f[0]], k) in t.newLinks
  {
    var (s1, code) := AddRank(s, Name(f[2]));
    var t := FieldsRow(s, f, true).value;
    assert Link(t.nodeDict[f[1]], t.nodeDict[f[0]], t.rank[code]) in t.newLinks;
  }

  /** For a rank first seen in the run, or one whose entry holds both ways,
      the link a data row adds carries the rank NAME of the row (or "-"),
      not a rank code: `file_mod` turns the name into its code and
      `_parse_new_links` turns it back. */
  lemma StoredRankIsName(s: Session, parent: string, child: string, name: string)
    requires RanksFresh(s) && EntryPaired(s.rank, Name(name))
    requires !(child == "" && parent != "")
    ensures var (s1, code) := AddRank(s, Name(name));
      var t := ParseNewLinks(s1, parent, child, code).value;
      t.newLinks == s.newLinks + {Link(t.nodeDict[parent], t.nodeDict[child], Name(name))}
  {
    var (s1, code) := AddRank(s, Name(name));
    AddRankKeeps(s, Name(name));
    DoubleTranslation(s, name);
    assert code in s1.rank;
  }

  /** For a rank name whose code has no reverse entry, the link a data row
      adds carries a FRESH code that the store had not issued before. */
  lemma StoredRankFresh(s: Session, parent: string, child: string, name: string)
    requires RanksFresh(s) && Name(name) in s.rank && s.rank[Name(name)] !in s.rank
    requires !(child == "" && parent != "")
    ensures var (s1, code) := AddRank(s, Name(name));
      var t := ParseNewLinks(s1, parent, child, code).value;
      t.newLinks == s.newLinks + {Link(t.nodeDict[parent], t.nodeDict[child], Code(s.db.nextRank))}
  {
    OneWayRank(s, name);
  }

  // ---------------------------------------------------------------------
  // database_mod

  /** What `database_mod` reads from the second store. */
  datatype ForeignDb = ForeignDb(
    annotation: map<int, string>,   // get_nodes(col=1): id -> name
    rankNames: map<int, string>,    // get_rank(col=1): code -> name
    links: seq<(int, int, int)>,    // get_links(annotated ids): (parent, child, rank code)
    genomes: seq<(string, int)>)    // get_genomes(): genome -> node id, in dictionary order

  /** A foreign link that translates without an exception. */
  predicate Translatable(f: ForeignDb, l: (int, int, int)) {
    && l.0 in f.annotation && l.1 in f.annotation && l.2 in f.rankNames
    && !(Strip(f.annotation[l.1]) == "" && Strip(f.annotation[l.0]) != "")
  }

  /** One link of `database_mod`. A self-loop is the foreign root: in
      replace mode, and unless it is node 1, it stands for the anchor's own
      parent link; it is never translated. Any other link is translated by
      stripped node names and rank name. A failed lookup of either node name
      raises `KeyError` again inside the handler; any other failure reaches
      `exit()`. */
  function ForeignLink(s: Session, anchorLink: Link, f: ForeignDb, l: (int, int, int)): (r: Result<Session>)
    ensures l.0 == l.1 ==>
      r == Ok(if s.replace && l.0 != 1 then s.(newLinks := s.newLinks + {anchorLink}) else s)
    ensures l.0 != l.1 ==> (r.Ok? <==> Translatable(f, l))
    ensures r.Err? ==> r.error == (if l.0 in f.annotation && l.1 in f.annotation then Exit else KeyError)
    ensures l.0 != l.1 && r.Ok? ==>
      NewLinkAdded(s, r.value, Strip(f.annotation[l.0]), Strip(f.annotation[l.1]), Name(f.rankNames[l.2]))
  {
    if l.0 == l.1 then
      Ok(if s.replace && l.0 != 1 then s.(newLinks := s.newLinks + {anchorLink}) else s)
    else if l.0 !in f.annotation || l.1 !in f.annotation then Err(KeyError)
    else if l.2 !in f.rankNames then Err(Exit)
    else
      match ParseNewLinks(s, Strip(f.annotation[l.0]), Strip(f.annotation[l.1]), Name(f.rankNames[l.2]))
      case Ok(t) => Ok(t)
      case Err(_) => Err(Exit)
  }

  /** Some foreign link is a self-loop on a node other than 1. */
  predicate HasForeignRoot(links: seq<(int, int, int)>) {
    exists l :: l in links && l.0 == l.1 && l.0 != 1
  }

  /** The links of `database_mod` in the order the second store returns them. */
  function TranslateLinks(s: Session, anchorLink: Link, f: ForeignDb, links: seq<(int, int, int)>): (r: Result<Session>)
    ensures r.Ok? <==> forall l :: l in links && l.0 != l.1 ==> Translatable(f, l)
    ensures r.Err? ==> r.error == KeyError || r.error == Exit
    ensures r.Ok? ==> Grows(s, r.value)
    ensures r.Ok? && s.replace && HasForeignRoot(links) ==> anchorLink in r.value.newLinks
    ensures r.Ok? ==> forall l :: l in links && l.0 != l.1 ==> Resolved(r.value, f, l)
    decreases |links|
  {
    if |links| == 0 then Ok(s)
    else
      match ForeignLink(s, anchorLink, f, links[0])
      case Err(e) => Err(e)
      case Ok(s1) =>
        var r := TranslateLinks(s1, anchorLink, f, links[1..]);
        assert forall l :: l in links <==> l == links[0] || l in links[1..];
        if r.Ok? then GrowsTrans(s, s1, r.value); r else r
  }

  /** `database_mod`: translate every link of the second store; its genome
      annotations are handed back for `update_genomes`. */
  function DatabaseMod(s: Session, anchorLink: Link, f: ForeignDb): (r: Result<Session>)
    ensures r.Ok? <==> forall l :: l in f.links && l.0 != l.1 ==> Translatable(f, l)
    ensures r.Err? ==> r.error == KeyError || r.error == Exit
    ensures r.Ok? ==> Grows(s, r.value)
    ensures r.Ok? ==> forall l :: l in f.links && l.0 != l.1 ==> Resolved(r.value, f, l)
    ensures r.Ok? && s.replace && HasForeignRoot(f.links) ==> anchorLink in r.value.newLinks
  {
    TranslateLinks(s, anchorLink, f, f.links)
  }

  /** Both node names and the rank name of a foreign link are known in `t`. */
  ghost predicate Resolved(t: Session, f: ForeignDb, l: (int, int, int)) {
    && l.0 in f.annotation && l.1 in f.annotation && l.2 in f.rankNames
    && Strip(f.annotation[l.0]) in t.nodeDict && Strip(f.annotation[l.1]) in t.nodeDict
    && Name(f.rankNames[l.2]) in t.rank
  }

  /** The primary-store triple a resolved foreign link becomes in state `t`. */
  ghost function Translation(t: Session, f: ForeignDb, l: (int, int, int)): Link
    requires Resolved(t, f, l)
  {
    Link(t.nodeDict[Strip(f.annotation[l.0])], t.nodeDict[Strip(f.annotation[l.1])], t.rank[Name(f.rankNames[l.2])])
  }

  /** The translations of all non-self-loop links. */
  ghost function Translations(t: Session, f: ForeignDb, links: seq<(int, int, int)>): set<Link>
    requires forall l :: l in links && l.0 != l.1 ==> Resolved(t, f, l)
  {
    set l | l in links && l.0 != l.1 :: Translation(t, f, l)
  }

  lemma TranslationsCons(t: Session, f: ForeignDb, links: seq<(int, int, int)>)
    requires |links| > 0
    requires forall l :: l in links && l.0 != l.1 ==> Resolved(t, f, l)
    ensures Translations(t, f, links) ==
      Translations(t, f, links[1..]) + (if links[0].0 != links[0].1 then {Translation(t, f, links[0])} else {})
  {
    assert forall l :: l in links <==> l == links[0] || l in links[1..];
  }

  /** With fresh rank codes, translating foreign links keeps the codes
      fresh and rebinds no rank entry. */
  lemma {:induction false} TranslateLinksKeepsRanks(s: Session, anchorLink: Link, f: ForeignDb, links: seq<(int, int, int)>)
    requires RanksFresh(s)
    requires TranslateLinks(s, anchorLink, f, links).Ok?
    decreases |links|
    ensures var t := TranslateLinks(s, anchorLink, f, links).value;
      RanksFresh(t) && forall j :: j in s.rank ==> j in t.rank && t.rank[j] == s.rank[j]
  {
    if |links| > 0 {
      var l0 := links[0];
      var s1 := ForeignLink(s, anchorLink, f, l0).value;
      if l0.0 != l0.1 {
        ParseNewLinksKeepsRanks(s, Strip(f.annotation[l0.0]), Strip(f.annotation[l0.1]), Name(f.rankNames[l0.2]));
      }
      TranslateLinksKeepsRanks(s1, anchorLink, f, links[1..]);
    }
  }

  /** With fresh rank codes, the links `database_mod` collects are exactly
      the translations of the non-self-loop foreign links, plus the anchor's
      parent link when replace mode meets a foreign root other than node 1.
      No self-loop is ever translated. */
  lemma {:induction false} TranslatedLinks(s: Session, anchorLink: Link, f: ForeignDb, links: seq<(int, int, int)>)
    requires RanksFresh(s)
    requires TranslateLinks(s, anchorLink, f, links).Ok?
    decreases |links|, 1
    ensures var t := TranslateLinks(s, anchorLink, f, links).value;
      t.newLinks ==
        s.newLinks + Translations(t, f, links)
        + (if s.replace && HasForeignRoot(links) then {anchorLink} else {})
  {
    if |links| > 0 {
      if links[0].0 != links[0].1 {
        TranslatedPair(s, anchorLink, f, links);
      } else {
        TranslatedLoop(s, anchorLink, f, links);
      }
    }
  }

  /** The step of `TranslatedLinks` for a first link that is translated. */
  lemma {:induction false} TranslatedPair(s: Session, anchorLink: Link, f: ForeignDb, links: seq<(int, int, int)>)
    requires RanksFresh(s)
    requires TranslateLinks(s, anchorLink, f, links).Ok?
    requires |links| > 0 && links[0].0 != links[0].1
    decreases |links|, 0
    ensures var t := TranslateLinks(s, anchorLink, f, links).value;
      t.newLinks ==
        s.newLinks + Translations(t, f, links)
        + (if s.replace && HasForeignRoot(links) then {anchorLink} else {})
  {
    var t := TranslateLinks(s, anchorLink, f, links).value;
    var l0 := links[0];
    var rest := links[1..];
    var s1 := ForeignLink(s, anchorLink, f, l0).value;
    assert t == TranslateLinks(s1, anchorLink, f, rest).value;
    ParseNewLinksKeepsRanks(s, Strip(f.annotation[l0.0]), Strip(f.annotation[l0.1]), Name(f.rankNames[l0.2]));
    TranslatedLinks(s1, anchorLink, f, rest);
    TranslationsCons(t, f, links);
    ForeignRootCons(links);
    TranslateLinksKeepsRanks(s1, anchorLink, f, rest);
    PairStep(s, anchorLink, f, l0, s1, t);
    var x := {Translation(t, f, l0)};
    var A1 := if s1.replace && HasForeignRoot(rest) then {anchorLink} else {};
    var A := if s.replace && HasForeignRoot(links) then {anchorLink} else {};
    Shuffle(s.newLinks, x, Translations(t, f, rest), A1, x, A);
  }

  /** The step of `TranslatedLinks` for a first link that is a self-loop. */
  lemma {:induction false} TranslatedLoop(s: Session, anchorLink: Link, f: ForeignDb, links: seq<(int, int, int)>)
    requires RanksFresh(s)
    requires TranslateLinks(s, anchorLink, f, links).Ok?
    requires |links| > 0 && links[0].0 == links[0].1
    decreases |links|, 0
    ensures var t := TranslateLinks(s, anchorLink, f, links).value;
      t.newLinks ==
        s.newLinks + Translations(t, f, links)
        + (if s.replace && HasForeignRoot(links) then {anchorLink} else {})
  {
    var t := TranslateLinks(s, anchorLink, f, links).value;
    var l0 := links[0];
    var rest := links[1..];
    var s1 := ForeignLink(s, anchorLink, f, l0).value;
    assert t == TranslateLinks(s1, anchorLink, f, rest).value;
    TranslatedLinks(s1, anchorLink, f, rest);
    TranslationsCons(t, f, links);
    ForeignRootCons(links);
    var y := if s.replace && l0.0 != 1 then {anchorLink} else {};
    var A1 := if s1.replace && HasForeignRoot(rest) then {anchorLink} else {};
    var A := if s.replace && HasForeignRoot(links) then {anchorLink} else {};
    assert s1 == (if s.replace && l0.0 != 1 then s.(newLinks := s.newLinks + {anchorLink}) else s);
    assert s1.newLinks == s.newLinks + y && y + A1 == {} + A;
    Shuffle(s.newLinks, y, Translations(t, f, rest), A1, {}, A);
  }

  /** A foreign root lies in the first link or in the rest. */
  lemma ForeignRootCons(links: seq<(int, int, int)>)
    requires |links| > 0
    ensures HasForeignRoot(links) ==
      (HasForeignRoot(links[1..]) || (links[0].0 == links[0].1 && links[0].0 != 1))
  {
    assert forall l :: l in links <==> l == links[0] || l in links[1..];
  }

  /** The link a translated foreign link adds is its translation in any
      later state that keeps the node and rank entries. */
  lemma PairStep(s: Session, anchorLink: Link, f: ForeignDb, l: (int, int, int), s1: Session, t: Session)
    requires l.0 != l.1 && ForeignLink(s, anchorLink, f, l) == Ok(s1)
    requires Grows(s1, t)
    requires forall j :: j in s1.rank ==> j in t.rank && t.rank[j] == s1.rank[j]
    ensures Resolved(t, f, l)
    ensures s1.newLinks == s.newLinks + {Translation(t, f, l)}
  {
  }

  lemma Shuffle<T>(base: set<T>, y: set<T>, rest: set<T>, a1: set<T>, x: set<T>, a: set<T>)
    requires y + a1 == x + a
    ensures (base + y) + rest + a1 == base + (rest + x) + a
  {
  }

  // ---------------------------------------------------------------------
  // Reading a source without an allocator

  /* With `clean_database` set, the constructor skips the allocator set-up,
     so `taxid_set` never exists and the first `add_node` raises
     `AttributeError`. Such a read goes exactly like an ordinary one up to
     the first row or link that names something outside the name cache; the
     cache cannot grow before that point. */

  /** A data row such a read gets through: accepted, and both its names
      already cached. */
  predicate RowKnown(names: map<string, int>, row: string, sep: string, swap: bool)
    requires |sep| > 0
  {
    && RowAccepted(row, sep, swap)
    && (Strip(row) != "" ==>
          RowParent(RowFields(row, sep), swap) in names && RowChild(RowFields(row, sep), swap) in names)
  }

  /** What a row that does not get through raises: its own `ValueError` or
      `InputError` first, else `AttributeError` from `add_node`. */
  function RowFailure(row: string, sep: string, swap: bool): Error
    requires |sep| > 0
  {
    if !RowAccepted(row, sep, swap) then (if |RowFields(row, sep)| != 3 then ValueError else InputError)
    else AttributeError
  }

  /** Nothing for a row that gets through, else what it raises. */
  function RowCheck(names: map<string, int>, row: string, sep: string, swap: bool): (r: Option<Error>)
    requires |sep| > 0
    ensures r.None? <==> RowKnown(names, row, sep, swap)
  {
    if RowKnown(names, row, sep, swap) then None else Some(RowFailure(row, sep, swap))
  }

  /** `RowCheck` for each row in turn. */
  function RowChecks(names: map<string, int>, sep: string, swap: bool): string -> Option<Error>
    requires |sep| > 0
  {
    row => RowCheck(names, row, sep, swap)
  }

  /** The exception of the first row that does not get through, if any. */
  function FirstUnknownRow(names: map<string, int>, rows: seq<string>, sep: string, swap: bool): (r: Option<Error>)
    requires |sep| > 0
    ensures r.None? <==> forall row :: row in rows ==> RowKnown(names, row, sep, swap)
    ensures r.Some? ==> exists i ::
      && 0 <= i < |rows| && !RowKnown(names, rows[i], sep, swap)
      && r.value == RowFailure(rows[i], sep, swap)
      && forall row :: row in rows[..i] ==> RowKnown(names, row, sep, swap)
  {
    var f := RowChecks(names, sep, swap);
    var r := FirstSome(rows, f);
    assert forall row :: f(row) == RowCheck(names, row, sep, swap);
    r
  }

  /** Among rows the ordinary read accepts, only `add_node` can stop a
      read without an allocator. */
  lemma AcceptedRowsFailInAddNode(names: map<string, int>, rows: seq<string>, sep: string, swap: bool)
    requires |sep| > 0 && forall row :: row in rows ==> RowAccepted(row, sep, swap)
    requires FirstUnknownRow(names, rows, sep, swap).Some?
    ensures FirstUnknownRow(names, rows, sep, swap).value == AttributeError
  {
    var i :| 0 <= i < |rows| && FirstUnknownRow(names, rows, sep, swap).value == RowFailure(rows[i], sep, swap);
    assert rows[i] in rows;
  }

  /** A row that gets through is read without caching a new name. */
  lemma KnownRowStep(s: Session, row: string, sep: string, swap: bool)
    requires |sep| > 0 && RowKnown(s.nodeDict, row, sep, swap)
    ensures FileRow(s, row, sep, swap).Ok? && FileRow(s, row, sep, swap).value.nodeDict.Keys == s.nodeDict.Keys
  {
  }

  /** Rows that all get through are read without caching a new name. */
  lemma {:induction false} KnownRowsRead(s: Session, rows: seq<string>, sep: string, swap: bool)
    requires |sep| > 0 && forall row :: row in rows ==> RowKnown(s.nodeDict, row, sep, swap)
    ensures FileRows(s, rows, sep, swap).Ok? && FileRows(s, rows, sep, swap).value.nodeDict.Keys == s.nodeDict.Keys
    decreases |rows|
  {
    if |rows| > 0 {
      assert rows[0] in rows;
      KnownRowStep(s, rows[0], sep, swap);
      var s1 := FileRow(s, rows[0], sep, swap).value;
      assert forall row :: row in rows[1..] ==> RowKnown(s1.nodeDict, row, sep, swap) by {
        forall row | row in rows[1..] ensures RowKnown(s1.nodeDict, row, sep, swap) {
          assert row in rows;
        }
      }
      KnownRowsRead(s1, rows[1..], sep, swap);
    }
  }

  /** Rows read from `s` all get through exactly when the ordinary read
      succeeds and caches no new name, i.e. never reaches `add_node`. */
  lemma KnownRowsAllocateNothing(s: Session, rows: seq<string>, sep: string, swap: bool)
    requires |sep| > 0
    ensures (forall row :: row in rows ==> RowKnown(s.nodeDict, row, sep, swap)) <==>
      FileRows(s, rows, sep, swap).Ok? && FileRows(s, rows, sep, swap).value.nodeDict.Keys == s.nodeDict.Keys
  {
    var r := FileRows(s, rows, sep, swap);
    if forall row :: row in rows ==> RowKnown(s.nodeDict, row, sep, swap) {
      KnownRowsRead(s, rows, sep, swap);
    }
    if r.Ok? && r.value.nodeDict.Keys == s.nodeDict.Keys {
      forall row | row in rows ensures RowKnown(s.nodeDict, row, sep, swap) {
        assert RowNamed(r.value, row, sep, swap);
      }
    }
  }

  /** A foreign link such a read gets through: a self-loop, or a link that
      translates with both node names already cached. */
  predicate LinkKnown(names: map<string, int>, f: ForeignDb, l: (int, int, int)) {
    l.0 == l.1 ||
    (Translatable(f, l) && Strip(f.annotation[l.0]) in names && Strip(f.annotation[l.1]) in names)
  }

  /** What a link that does not get through raises: `KeyError` when a node
      name is missing, else `exit()` (the bare `except` of `database_mod`
      also catches the `AttributeError`). */
  function LinkFailure(f: ForeignDb, l: (int, int, int)): Error {
    if l.0 in f.annotation && l.1 in f.annotation then Exit else KeyError
  }

  /** Nothing for a link that gets through, else what it raises. */
  function LinkCheck(names: map<string, int>, f: ForeignDb, l: (int, int, int)): (r: Option<Error>)
    ensures r.None? <==> LinkKnown(names, f, l)
  {
    if LinkKnown(names, f, l) then None else Some(LinkFailure(f, l))
  }

  /** `LinkCheck` for each link in turn. */
  function LinkChecks(names: map<string, int>, f: ForeignDb): ((int, int, int)) -> Option<Error> {
    l => LinkCheck(names, f, l)
  }

  /** The exception of the first link that does not get through, if any. */
  function FirstUnknownLink(names: map<string, int>, f: ForeignDb, links: seq<(int, int, int)>): (r: Option<Error>)
    ensures r.None? <==> forall l :: l in links ==> LinkKnown(names, f, l)
    ensures r.Some? ==> exists i ::
      && 0 <= i < |links| && !LinkKnown(names, f, links[i])
      && r.value == LinkFailure(f, links[i])
      && forall l :: l in links[..i] ==> LinkKnown(names, f, l)
  {
    var g := LinkChecks(names, f);
    var r := FirstSome(links, g);
    assert forall l :: g(l) == LinkCheck(names, f, l);
    r
  }

  /** Among foreign links that all translate, only `add_node` can stop a
      read without an allocator, and the bare `except` makes that `exit()`. */
  lemma TranslatableLinksFailInAddNode(names: map<string, int>, f: ForeignDb, links: seq<(int, int, int)>)
    requires forall l :: l in links && l.0 != l.1 ==> Translatable(f, l)
    requires FirstUnknownLink(names, f, links).Some?
    ensures FirstUnknownLink(names, f, links).value == Exit
  {
    var i :| 0 <= i < |links| && !LinkKnown(names, f, links[i]) &&
      FirstUnknownLink(names, f, links).value == LinkFailure(f, links[i]);
    assert links[i] in links;
  }

  /** Foreign links read from `s` all get through exactly when the ordinary
      read succeeds and caches no new name. */
  lemma {:induction false} KnownLinksAllocateNothing(s: Session, anchorLink: Link, f: ForeignDb, links: seq<(int, int, int)>)
    ensures (forall l :: l in links ==> LinkKnown(s.nodeDict, f, l)) <==>
      TranslateLinks(s, anchorLink, f, links).Ok? &&
      TranslateLinks(s, anchorLink, f, links).value.nodeDict.Keys == s.nodeDict.Keys
    decreases |links|
  {
    var r := TranslateLinks(s, anchorLink, f, links);
    if forall l :: l in links ==> LinkKnown(s.nodeDict, f, l) {
      if |links| > 0 {
        var s1 := ForeignLink(s, anchorLink, f, links[0]).value;
        assert links[0] in links;
        assert s1.nodeDict.Keys == s.nodeDict.Keys;
        assert forall l :: l in links[1..] ==> LinkKnown(s1.nodeDict, f, l) by {
          forall l | l in links[1..] ensures LinkKnown(s1.nodeDict, f, l) {
            assert l in links;
          }
        }
        KnownLinksAllocateNothing(s1, anchorLink, f, links[1..]);
      }
    }
    if r.Ok? && r.value.nodeDict.Keys == s.nodeDict.Keys {
      forall l | l in links ensures LinkKnown(s.nodeDict, f, l) {
        if l.0 != l.1 { assert Resolved(r.value, f, l); }
      }
    }
  }

  // ---------------------------------------------------------------------
  // add_link

  /** Python truthiness of an optional node id: `None` and `0` are false. */
  predicate Truthy(x: Option<int>) {
    x.Some? && x.value != 0
  }

  /** `add_link(child, parent, rank)`, the one place `TreeError` is raised.
      Past the guard it looks the rank up (`KeyError` on a miss) and then
      reads `self.database`, an attribute `ModifyTree` never sets, so no
      call returns normally. */
  function AddLink(s: Session, child: Option<int>, parent: Option<int>, rank: RankKey): (r: Result<Session>)
    ensures r.Err?
    ensures r.error == TreeError <==> !Truthy(child) && Truthy(parent)
    ensures r.error == KeyError <==> !(!Truthy(child) && Truthy(parent)) && rank !in s.rank
  {
    if !Truthy(child) && Truthy(parent) then Err(TreeError)
    else if rank !in s.rank then Err(KeyError)
    else Err(AttributeError)
  }
}

=== FILE: registry.dfy ===
/** The state a `ModifyTree` object keeps between calls, and its three
    registries: the node-id allocator (`_taxfix`, `add_node`), the name -> id
    cache (`get_id`) and the bidirectional rank dictionary (`add_rank`). */
module Registry {
  import opened Results
  import opened Store

  const Million: int := 1000000

  /** `_taxfix(x)`: the smallest multiple of one million that is at least `x`. */
  function TaxFix(x: int): (r: int)
    ensures r % Million == 0
    ensures x <= r < x + Million
  {
    var q := (-x) / Million;
    assert -x == q * Million + (-x) % Million;
    -q * Million
  }

  /** The attributes of a `ModifyTree` object the merge engine reads and writes. */
  datatype Session = Session(
    db: Store,                       // self.taxonomydb
    rank: map<RankKey, RankKey>,     // self.rank, names and codes in one dictionary
    nodeDict: map<string, int>,      // self.nodeDict, name -> id cache
    taxonomy: map<string, int>,      // self.taxonomy, names created by add_node
    taxidBase: int,                  // self.taxid_base
    taxidSet: int,                   // self.taxid_set
    replace: bool,                   // self.replace
    newNodes: set<int>,              // self.new_nodes
    newLinks: set<Link>)             // self.new_links

  /** The allocator and cache set-up of `ModifyTree.__init__`; `maxId` is the
      backend's answer to `get_taxid_base()`. */
  function Open(db: Store, rank: map<RankKey, RankKey>, maxId: nat, replace: bool): (s: Session)
    ensures s.taxidBase == s.taxidSet && s.taxidBase >= maxId && s.taxidBase % Million == 0
    ensures s.taxidBase == TaxFix(maxId)
    ensures s.db == db && s.rank == rank && s.replace == replace
    ensures s.nodeDict == db.names && s.taxonomy == map[]
    ensures s.newNodes == {} && s.newLinks == {}
  {
    var base := TaxFix(maxId);
    Session(db, rank, db.names, map[], base, base, replace, {}, {})
  }

  /** `add_node(description)`: the first call after `Open` forces the rounded
      base as the id and then disarms the forcing; later calls take the
      backend's next automatic id. */
  function AddNode(s: Session, desc: string): (r: (Session, int))
    ensures r.0.taxonomy == s.taxonomy[desc := r.1]
    ensures r.0.db.names == s.db.names[desc := r.1]
    ensures r.0.taxidBase == r.1
    ensures s.taxidSet == s.taxidBase ==> r.1 == s.taxidBase && r.0.taxidSet == -1
    ensures s.taxidSet != s.taxidBase ==> r.1 == s.db.nextId && r.0.taxidSet == s.taxidSet
    ensures r.1 < r.0.db.nextId && s.db.nextId <= r.0.db.nextId
    ensures r.0 == s.(db := r.0.db, taxonomy := r.0.taxonomy, taxidBase := r.1, taxidSet := r.0.taxidSet)
    ensures Links(r.0.db) == Links(s.db) && r.0.db.genomes == s.db.genomes
    ensures r.0.db.nextRank == s.db.nextRank
  {
    if s.taxidSet == s.taxidBase then
      var (db, id) := InsertNode(s.db, desc, Some(s.taxidBase));
      (s.(db := db, taxonomy := s.taxonomy[desc := id], taxidBase := id, taxidSet := -1), id)
    else
      var (db, id) := InsertNode(s.db, desc, None);
      (s.(db := db, taxonomy := s.taxonomy[desc := id], taxidBase := id), id)
  }

  /** `add_rank(rank)`: look the key up; on a miss register a fresh code in
      the backend and record the pair in both directions. */
  function AddRank(s: Session, k: RankKey): (r: (Session, RankKey))
    ensures k in s.rank ==> r == (s, s.rank[k])
    ensures k in r.0.rank && r.0.rank[k] == r.1
    ensures k !in s.rank ==> r.1 == Code(s.db.nextRank) && r.1 in r.0.rank && r.0.rank[r.1] == k
    ensures k !in s.rank ==> r.0.rank.Keys == s.rank.Keys + {k, r.1}
    ensures forall j :: j in s.rank && j != r.1 ==> r.0.rank[j] == s.rank[j]
    ensures r.0 == s.(db := r.0.db, rank := r.0.rank)
    ensures r.0.db.names == s.db.names && Links(r.0.db) == Links(s.db)
    ensures r.0.db.genomes == s.db.genomes && r.0.db.nextId == s.db.nextId
    ensures s.db.nextRank <= r.0.db.nextRank
  {
    if k in s.rank then (s, s.rank[k])
    else
      var (db, c) := InsertRank(s.db, k);
      (s.(db := db, rank := s.rank[k := Code(c)][Code(c) := k]), Code(c))
  }

  /** `get_id(desc)`: the cached id of a name, or a freshly added node that is
      then cached; a cached name is never rebound. */
  function GetId(s: Session, d: string): (r: (Session, int))
    ensures d in s.nodeDict ==> r == (s, s.nodeDict[d])
    ensures d in r.0.nodeDict && r.0.nodeDict[d] == r.1
    ensures r.0.nodeDict.Keys == s.nodeDict.Keys + {d}
    ensures forall e :: e in s.nodeDict ==> r.0.nodeDict[e] == s.nodeDict[e]
    ensures d !in s.nodeDict ==> r.0.taxonomy == s.taxonomy[d := r.1] && r.0.db.names == s.db.names[d := r.1]
    ensures r.0.rank == s.rank && r.0.replace == s.replace
    ensures r.0.newNodes == s.newNodes && r.0.newLinks == s.newLinks
    ensures Links(r.0.db) == Links(s.db) && r.0.db.genomes == s.db.genomes
    ensures r.0.db.nextRank == s.db.nextRank
    ensures d !in s.nodeDict && s.taxidSet == s.taxidBase ==> r.1 == s.taxidBase && r.0.taxidSet == -1
    ensures d !in s.nodeDict && s.taxidSet != s.taxidBase ==> r.1 == s.db.nextId && r.0.taxidSet == s.taxidSet
    ensures d !in s.nodeDict ==> r.0.taxidBase == r.1 && r.1 < r.0.db.nextId && s.db.nextId <= r.0.db.nextId
    ensures r.0 == s.(db := r.0.db, taxonomy := r.0.taxonomy, nodeDict := r.0.nodeDict,
                      taxidBase := r.0.taxidBase, taxidSet := r.0.taxidSet)
  {
    if d in s.nodeDict then (s, s.nodeDict[d])
    else
      var (t, i) := AddNode(s, d);
      (t.(nodeDict := s.nodeDict[d := i]), i)
  }

  /** Looking a name up again right after `get_id` returns the same id and
      changes nothing. */
  lemma GetIdRoundTrip(s: Session, d: string)
    ensures var (t, i) := GetId(s, d); GetId(t, d) == (t, i)
  {
  }

  // ---------------------------------------------------------------------
  // The allocator over a run of `add_node` calls

  /** `add_node` applied to each name in turn; the ids it returned. */
  function AddNodes(s: Session, descs: seq<string>): (r: (Session, seq<int>))
    ensures |r.1| == |descs|
    decreases |descs|
  {
    if |descs| == 0 then (s, [])
    else
      var (s1, id) := AddNode(s, descs[0]);
      var (s2, ids) := AddNodes(s1, descs[1..]);
      (s2, [id] + ids)
  }

  predicate Increasing(ids: seq<int>) {
    forall i, j :: 0 <= i < j < |ids| ==> ids[i] < ids[j]
  }

  /** Once disarmed, the allocator never forces an id again: every call takes
      the backend's next id, so the ids rise strictly. */
  lemma {:induction false} UnforcedRun(s: Session, descs: seq<string>)
    requires s.taxidSet == -1 && s.taxidBase >= 0
    decreases |descs|
    ensures var (t, ids) := AddNodes(s, descs);
      && Increasing(ids)
      && (forall i :: 0 <= i < |ids| ==> s.db.nextId <= ids[i] < t.db.nextId)
      && t.taxidSet == -1 && t.taxidBase >= 0
      && s.db.nextId <= t.db.nextId
  {
    if |descs| > 0 {
      var (s1, id) := AddNode(s, descs[0]);
      UnforcedRun(s1, descs[1..]);
    }
  }

  /** From a freshly opened session, the first `add_node` takes exactly the
      rounded base, no later call forces an id, and all ids are distinct, at
      least the base, and disjoint from the ids already in the store when all
      of those lie below the base. */
  lemma {:induction false} AllocationRun(s: Session, descs: seq<string>)
    requires s.taxidSet == s.taxidBase && s.taxidBase >= 0
    requires |descs| > 0
    ensures var (t, ids) := AddNodes(s, descs);
      && ids[0] == s.taxidBase
      && Increasing(ids)
      && t.taxidSet == -1
      && (forall i :: 0 <= i < |ids| ==> ids[i] >= s.taxidBase)
      && ((forall n :: n in s.db.names ==> s.db.names[n] < s.taxidBase) ==>
            forall i :: 0 <= i < |ids| ==> ids[i] !in Ids(s.db))
  {
    var (s1, id) := AddNode(s, descs[0]);
    UnforcedRun(s1, descs[1..]);
    var (t, ids) := AddNodes(s, descs);
    assert ids == [id] + AddNodes(s1, descs[1..]).1;
  }

  // ---------------------------------------------------------------------
  // The rank dictionary

  predicate Below(k: RankKey, n: int) {
    k.Code? ==> k.code < n
  }

  /** Every code in the dictionary was issued by the backend already, so the
      next code the backend issues is not yet a key. */
  predicate RanksFresh(s: Session) {
    forall k :: k in s.rank ==> Below(k, s.db.nextRank) && Below(s.rank[k], s.db.nextRank)
  }

  /** The dictionary holds every entry in both directions. */
  predicate Paired(rank: map<RankKey, RankKey>) {
    forall k :: k in rank ==> rank[k] in rank && rank[rank[k]] == k
  }

  /** With fresh codes, `add_rank` only adds entries, keeps the dictionary
      fresh and keeps it paired. */
  lemma AddRankKeeps(s: Session, k: RankKey)
    requires RanksFresh(s) && Below(k, s.db.nextRank)
    ensures var (t, v) := AddRank(s, k);
      && RanksFresh(t) && Below(v, t.db.nextRank)
      && (forall j :: j in s.rank ==> j in t.rank && t.rank[j] == s.rank[j])
      && (Paired(s.rank) ==> Paired(t.rank))
  {
    var (t, v) := AddRank(s, k);
    if k !in s.rank {
      assert Code(s.db.nextRank) !in s.rank;
      if Paired(s.rank) {
        forall j | j in t.rank
          ensures t.rank[j] in t.rank && t.rank[t.rank[j]] == j
        {
          if j in s.rank {
            assert s.rank[j] in s.rank;
          }
        }
      }
    }
  }

  /** The entry for `k`, if there is one, holds in both directions, as
      every entry `add_rank` registers during a run does. */
  predicate EntryPaired(rank: map<RankKey, RankKey>, k: RankKey) {
    k in rank ==> rank[k] in rank && rank[rank[k]] == k
  }

  /** `file_mod` turns a rank name into its code and `_parse_new_links` then
      calls `add_rank` on that code. For a rank first seen in the run, or one
      whose entry holds both ways, the second lookup hands back the NAME, so
      the link carries the rank name, not its code. */
  lemma DoubleTranslation(s: Session, name: string)
    requires RanksFresh(s) && EntryPaired(s.rank, Name(name))
    ensures var (s1, code) := AddRank(s, Name(name)); AddRank(s1, code).1 == Name(name)
  {
    AddRankKeeps(s, Name(name));
  }

  /** A rank name whose code has no reverse entry (a dictionary read one
      way from the store): the first `add_rank` finds the code, the second
      misses it and registers a FRESH code, bound back to the first one. */
  lemma OneWayRank(s: Session, name: string)
    requires RanksFresh(s) && Name(name) in s.rank && s.rank[Name(name)] !in s.rank
    ensures var (s1, code) := AddRank(s, Name(name));
      var (s2, k) := AddRank(s1, code);
      && s1 == s && code == s.rank[Name(name)]
      && k == Code(s.db.nextRank) && k != code && k != Name(name)
      && s2.rank[k] == code && s2.rank[code] == k
  {
  }
}

=== FILE: results.dfy ===
/** Optional values, outcomes and the exceptions the taxonomy code raises,
    and the per-row maps the readers are built from. */
module Results {

  datatype Option<+T> = None | Some(value: T)

  /** The Python exception classes that can end an operation of the model. */
  datatype Error =
    | InputError      // ModifyTree.InputError: malformed input, missing anchor, no annotations
    | TreeError       // ModifyTree.TreeError: a link without both ends
    | TypeError       // raised for an annotation file with the wrong name
    | ValueError      // unpacking a split row into the wrong number of names, or an empty separator
    | IndexError      // indexing past the fields of a split row
    | KeyError        // a dictionary lookup that is not caught
    | AttributeError  // an attribute the object never defines
    | Exit            // exit() inside database_mod

  /** The outcome of an operation that either produces a value or raises. */
  datatype Result<+T> = Ok(value: T) | Err(error: Error) {

    predicate IsFailure() {
      Err?
    }

    function PropagateFailure<U>(): Result<U>
      requires Err?
    {
      Err(error)
    }

    function Extract(): T
      requires Ok?
    {
      value
    }
  }

  // ---------------------------------------------------------------------
  // Sequences of per-row outcomes

  /** `f` applied to every element, in order. */
  function Image<A, B(!new)>(xs: seq<A>, f: A -> B): (r: seq<B>)
    ensures |r| == |xs| && forall i :: 0 <= i < |xs| ==> r[i] == f(xs[i])
    ensures forall y :: y in r <==> exists x :: x in xs && f(x) == y
  {
    var r := seq(|xs|, i requires 0 <= i < |xs| => f(xs[i]));
    assert forall y :: y in r ==> exists x :: x in xs && f(x) == y by {
      forall y | y in r
        ensures exists x :: x in xs && f(x) == y
      {
        var i :| 0 <= i < |r| && r[i] == y;
        assert xs[i] in xs;
      }
    }
    assert forall x :: x in xs ==> f(x) in r by {
      forall x | x in xs
        ensures f(x) in r
      {
        var i :| 0 <= i < |xs| && xs[i] == x;
        assert r[i] == f(x);
      }
    }
    r
  }

  /** The present values of a sequence of options, in order. */
  function Somes<T(!new)>(os: seq<Option<T>>): (r: seq<T>)
    ensures |r| <= |os|
    ensures forall x :: x in r <==> Some(x) in os
    ensures (forall i :: 0 <= i < |os| ==> os[i].Some?) ==> |r| == |os|
  {
    if |os| == 0 then []
    else
      assert forall o :: o in os <==> o == os[0] || o in os[1..];
      (if os[0].Some? then [os[0].value] else []) + Somes(os[1..])
  }

  /** Some element of a non-empty set. */
  lemma Pick<T>(a: set<T>) returns (x: T)
    requires a != {}
    ensures x in a
  {
    x :| x in a;
  }

  /** The shifted index set `{i + 1 | i in a}` has as many members as `a`. */
  lemma {:induction false} ShiftCard(a: set<int>)
    decreases |a|
    ensures |set i | i in a :: i + 1| == |a|
  {
    if a != {} {
      var x := Pick(a);
      ShiftCard(a - {x});
      var all := set i | i in a :: i + 1;
      var rest := set i | i in a - {x} :: i + 1;
      forall y | y in rest + {x + 1}
        ensures y in all
      {
        assert y - 1 in a && (y - 1) + 1 == y;
      }
      forall y | y in all
        ensures y in rest + {x + 1}
      {
        if y != x + 1 {
          assert y - 1 in a - {x} && (y - 1) + 1 == y;
        }
      }
      assert all == rest + {x + 1};
      assert x + 1 !in rest;
    }
  }

  /** The indices of the elements that satisfy `p`. */
  ghost function Positions<T>(xs: seq<T>, p: T -> bool): set<int> {
    set i | 0 <= i < |xs| && p(xs[i])
  }

  /** Dropping the first element shifts the other positions down by one. */
  lemma PositionsShift<T>(xs: seq<T>, p: T -> bool)
    requires |xs| > 0
    ensures Positions(xs, p) - {0} == set i | i in Positions(xs[1..], p) :: i + 1
  {
    var rest := xs[1..];
    var all := Positions(xs, p);
    var tail := Positions(rest, p);
    var shifted := set i | i in tail :: i + 1;
    forall i | i in all && i != 0
      ensures i in shifted
    {
      assert xs[i] == rest[i - 1];
      assert i - 1 in tail;
      assert (i - 1) + 1 == i;
    }
    forall y | y in shifted
      ensures y in all && y != 0
    {
      var j :| j in tail && y == j + 1;
      assert xs[y] == rest[j];
    }
  }

  /** The count of satisfying elements, one element at a time. */
  lemma PositionsCons<T>(xs: seq<T>, p: T -> bool)
    requires |xs| > 0
    ensures |Positions(xs, p)| == |Positions(xs[1..], p)| + (if p(xs[0]) then 1 else 0)
  {
    var all := Positions(xs, p);
    var tail := Positions(xs[1..], p);
    PositionsShift(xs, p);
    ShiftCard(tail);
    if p(xs[0]) {
      assert all == (all - {0}) + {0};
    } else {
      assert all == all - {0};
    }
  }

  /** The present values of an image, one element at a time. */
  lemma SomesImageCons<A, B(!new)>(xs: seq<A>, f: A -> Option<B>)
    requires |xs| > 0
    ensures Somes(Image(xs, f)) == (if f(xs[0]).Some? then [f(xs[0]).value] else []) + Somes(Image(xs[1..], f))
  {
    assert Image(xs, f)[1..] == Image(xs[1..], f);
  }

  /** The elements on which `f` gives a value, in order. */
  ghost function Present<A, B>(xs: seq<A>, f: A -> Option<B>): seq<A>
    decreases |xs|
  {
    if |xs| == 0 then []
    else (if f(xs[0]).Some? then [xs[0]] else []) + Present(xs[1..], f)
  }

  /** The present values of an image are, in order, the values at the
      elements on which `f` gives one. */
  lemma {:induction false} SomesInOrder<A, B(!new)>(xs: seq<A>, f: A -> Option<B>)
    ensures |Somes(Image(xs, f))| == |Present(xs, f)|
    ensures forall j :: 0 <= j < |Present(xs, f)| ==> f(Present(xs, f)[j]) == Some(Somes(Image(xs, f))[j])
    decreases |xs|
  {
    if |xs| > 0 {
      SomesInOrder(xs[1..], f);
      SomesImageCons(xs, f);
      var ps := Somes(Image(xs, f));
      var tail := Somes(Image(xs[1..], f));
      var sel := Present(xs, f);
      var selTail := Present(xs[1..], f);
      if f(xs[0]).Some? {
        OrderCons(ps, tail, sel, selTail, f, xs[0]);
      } else {
        assert ps == tail && sel == selTail;
      }
    }
  }

  /** The image of all but the last element is the image less its last value. */
  lemma ImagePrefix<A, B(!new)>(xs: seq<A>, f: A -> B)
    requires |xs| > 0
    ensures Image(xs, f)[..|xs| - 1] == Image(xs[..|xs| - 1], f)
    ensures Image(xs, f)[|xs| - 1] == f(xs[|xs| - 1])
  {
  }

  /** Putting a present element in front of both sides keeps them in step. */
  lemma OrderCons<A, B>(ps: seq<B>, tail: seq<B>, sel: seq<A>, selTail: seq<A>, f: A -> Option<B>, x: A)
    requires |tail| == |selTail| && forall j :: 0 <= j < |selTail| ==> f(selTail[j]) == Some(tail[j])
    requires f(x).Some? && ps == [f(x).value] + tail && sel == [x] + selTail
    ensures |ps| == |sel| && forall j :: 0 <= j < |sel| ==> f(sel[j]) == Some(ps[j])
  {
    forall j | 1 <= j < |sel|
      ensures f(sel[j]) == Some(ps[j])
    {
      assert sel[j] == selTail[j - 1] && ps[j] == tail[j - 1];
    }
  }

  /** The first `k + 1` elements of a sequence are its head and the first
      `k` of its tail. */
  lemma PrefixCons<T>(xs: seq<T>, k: nat)
    requires k + 1 <= |xs|
    ensures xs[..k + 1] == [xs[0]] + xs[1..][..k]
  {
  }

  /** The first present value `f` gives along `xs`, if any. */
  function FirstSome<A(!new), B>(xs: seq<A>, f: A -> Option<B>): (r: Option<B>)
    ensures r.None? <==> forall x :: x in xs ==> f(x).None?
    ensures r.Some? ==> exists i :: 0 <= i < |xs| && f(xs[i]) == r && forall x :: x in xs[..i] ==> f(x).None?
    decreases |xs|
  {
    if |xs| == 0 then None
    else if f(xs[0]).Some? then
      assert xs[..0] == [];
      f(xs[0])
    else
      var r := FirstSome(xs[1..], f);
      assert forall x :: x in xs <==> x == xs[0] || x in xs[1..];
      assert r.Some? ==> exists i :: 0 <= i < |xs| && f(xs[i]) == r && forall x :: x in xs[..i] ==> f(x).None? by {
        if r.Some? {
          var k :| 0 <= k < |xs[1..]| && f(xs[1..][k]) == r && forall x :: x in xs[1..][..k] ==> f(x).None?;
          PrefixCons(xs, k);
          assert xs[k + 1] == xs[1..][k];
        }
      }
      r
  }
}

=== FILE: store.dfy ===
/** The persistent taxonomy store as the merge engine sees it.

    The SQLite backend (`ModifyFunctions` in flextaxd/modules/database) is not
    part of this model; this module gives each query and update the merge
    engine calls a small definition and a contract:
      - the node table is a name -> id map (`get_nodes()`),
      - the tree table is its rows in insertion order, so that `get_parent`
        (the first row whose child is the node) is a function,
      - the genome table is a genome -> node id map,
      - the rank table maps rank keys to codes,
      - fresh node ids and rank codes come from two counters. */
module Store {
  import opened Results

  /** A key of the rank registry. ModifyTree keeps names and codes in one
      dictionary, so a key is either a rank name or a rank code. */
  datatype RankKey = Name(name: string) | Code(code: int)

  /** A row of the tree table: `(parent, child, rank)`. */
  datatype Link = Link(parent: int, child: int, rank: RankKey)

  datatype Store = Store(
    names: map<string, int>,
    tree: seq<Link>,
    genomes: map<string, int>,
    ranks: map<RankKey, int>,
    nextId: nat,
    nextRank: nat)

  function Links(db: Store): set<Link> {
    set l | l in db.tree
  }

  /** The ids of all nodes in the node table. */
  function Ids(db: Store): set<int> {
    db.names.Values
  }

  /** The ids a set of links mentions. */
  function Ends(ls: set<Link>): set<int> {
    (set l | l in ls :: l.parent) + (set l | l in ls :: l.child)
  }

  /** `get_id(name)`: the id of a named node, if there is one. */
  function NodeId(db: Store, name: string): (r: Option<int>)
    ensures r.Some? <==> name in db.names
    ensures r.Some? ==> r.value == db.names[name]
  {
    if name in db.names then Some(db.names[name]) else None
  }

  function FirstParent(rows: seq<Link>, id: int): (r: Option<Link>)
    ensures r.Some? ==> r.value in rows && r.value.child == id
    ensures r.None? <==> forall l :: l in rows ==> l.child != id
  {
    if |rows| == 0 then None
    else if rows[0].child == id then Some(rows[0])
    else FirstParent(rows[1..], id)
  }

  /** `get_parent(id)`: the first tree row that links the node to a parent. */
  function ParentLink(db: Store, id: int): (r: Option<Link>)
    ensures r.Some? ==> r.value in Links(db) && r.value.child == id
    ensures r.None? <==> forall l :: l in Links(db) ==> l.child != id
  {
    FirstParent(db.tree, id)
  }

  /** `add_node(name, id)`: insert a named node, at the forced id when one is
      given and otherwise at the next automatic id. */
  function InsertNode(db: Store, name: string, forced: Option<int>): (r: (Store, int))
    ensures r.0.names == db.names[name := r.1]
    ensures forced.Some? ==> r.1 == forced.value
    ensures forced.None? ==> r.1 == db.nextId
    ensures r.1 < r.0.nextId && db.nextId <= r.0.nextId
    ensures r.0 == r.0.(names := r.0.names, nextId := r.0.nextId)
    ensures r.0.tree == db.tree && r.0.genomes == db.genomes
    ensures r.0.ranks == db.ranks && r.0.nextRank == db.nextRank
  {
    var id := if forced.Some? then forced.value else db.nextId;
    var next: nat := if id + 1 > db.nextId then id + 1 else db.nextId;
    (db.(names := db.names[name := id], nextId := next), id)
  }

  /** `add_rank(key)`: insert a rank and return its fresh code. */
  function InsertRank(db: Store, k: RankKey): (r: (Store, int))
    ensures r.1 == db.nextRank && r.0.nextRank == db.nextRank + 1
    ensures r.0.ranks == db.ranks[k := r.1]
    ensures r.0.names == db.names && r.0.tree == db.tree
    ensures r.0.genomes == db.genomes && r.0.nextId == db.nextId
  {
    (db.(ranks := db.ranks[k := db.nextRank], nextRank := db.nextRank + 1), db.nextRank)
  }

  /** `get_links(nodes)`: the links that touch any of the nodes. */
  function LinksTouching(db: Store, nodes: set<int>): set<Link> {
    set l | l in db.tree && (l.parent in nodes || l.child in nodes)
  }

  /** `get_links(nodes, only_parents=True)`: the links whose parent is one of the nodes. */
  function LinksFrom(db: Store, nodes: set<int>): set<Link> {
    set l | l in db.tree && l.parent in nodes
  }

  function Without(rows: seq<Link>, ls: set<Link>): (r: seq<Link>)
    ensures forall l :: l in r <==> l in rows && l !in ls
  {
    if |rows| == 0 then []
    else if rows[0] in ls then Without(rows[1..], ls)
    else [rows[0]] + Without(rows[1..], ls)
  }

  /** `delete_links(links)` */
  function DeleteLinks(db: Store, ls: set<Link>): (r: Store)
    ensures Links(r) == Links(db) - ls
    ensures r == db.(tree := r.tree)
  {
    db.(tree := Without(db.tree, ls))
  }

  /** `delete_nodes(ids)` */
  function DeleteNodes(db: Store, ids: set<int>): (r: Store)
    ensures forall n :: n in r.names <==> n in db.names && db.names[n] !in ids
    ensures forall n :: n in r.names ==> r.names[n] == db.names[n]
    ensures Ids(r) == Ids(db) - ids
    ensures r == db.(names := r.names)
  {
    var m := map n | n in db.names && db.names[n] !in ids :: db.names[n];
    assert Ids(db) - ids <= m.Values by {
      forall v | v in Ids(db) - ids
        ensures v in m.Values
      {
        var n :| n in db.names && db.names[n] == v;
        assert m[n] == v;
      }
    }
    db.(names := m)
  }

  /** `delete_genomes(ids)`: drop the genome rows annotated to any of the nodes. */
  function DeleteGenomes(db: Store, ids: set<int>): (r: Store)
    ensures forall g :: g in r.genomes <==> g in db.genomes && db.genomes[g] !in ids
    ensures forall g :: g in r.genomes ==> r.genomes[g] == db.genomes[g]
    ensures r == db.(genomes := r.genomes)
  {
    db.(genomes := map g | g in db.genomes && db.genomes[g] !in ids :: db.genomes[g])
  }

  /** `update_genome`: point a genome at a node; the flag says whether the
      genome already had a row (an update rather than an insert). */
  function SetGenome(db: Store, genome: string, id: int): (r: (Store, bool))
    ensures r.0.genomes == db.genomes[genome := id]
    ensures r.1 <==> genome in db.genomes
    ensures r.0 == db.(genomes := r.0.genomes)
  {
    (db.(genomes := db.genomes[genome := id]), genome in db.genomes)
  }

  /** `add_links(links)`: insert every link not yet present; report the links
      that were inserted and the node ids they mention that have no node row. */
  method AddLinks(db: Store, ls: set<Link>) returns (r: Store, inserted: set<Link>, newNodes: set<int>)
    ensures Links(r) == Links(db) + ls
    ensures inserted == ls - Links(db)
    ensures newNodes == Ends(ls) - Ids(db)
    ensures r == db.(tree := r.tree)
  {
    var rows := db.tree;
    var todo := ls;
    inserted := {};
    while todo != {}
      invariant todo <= ls
      invariant (set l | l in rows) == Links(db) + (ls - todo)
      invariant inserted == (ls - todo) - Links(db)
      decreases todo
    {
      var l :| l in todo;
      if l !in rows {
        assert (set x | x in rows + [l]) == (set x | x in rows) + {l};
        rows := rows + [l];
        inserted := inserted + {l};
      }
      todo := todo - {l};
    }
    r := db.(tree := rows);
    newNodes := Ends(ls) - Ids(db);
  }

  // ---------------------------------------------------------------------
  // Reachability: `get_children` (descendants) and `get_parents(find_all=True)`
  // (ancestors) are the closure of the tree rows in one direction.

  function Successors(edges: set<(int, int)>, from: set<int>): set<int> {
    set e | e in edges && e.0 in from :: e.1
  }

  function Targets(edges: set<(int, int)>): set<int> {
    set e | e in edges :: e.1
  }

  /** The least superset of `seen` closed under `edges`. */
  function Reach(edges: set<(int, int)>, seen: set<int>): (r: set<int>)
    ensures seen <= r
    ensures Successors(edges, r) <= r
    ensures r <= seen + Targets(edges)
    decreases |Targets(edges) - seen|
  {
    var step := Successors(edges, seen);
    if step <= seen then seen
    else
      ShrinkGap(Targets(edges), seen, step);
      Reach(edges, seen + step)
  }

  lemma SubsetCard<T>(a: set<T>, b: set<T>)
    requires a <= b
    ensures |a| <= |b|
  {
    if a != {} {
      var x :| x in a;
      SubsetCard(a - {x}, b - {x});
    }
  }

  /** An element of `a` outside `b`. */
  lemma Outside<T>(a: set<T>, b: set<T>) returns (x: T)
    requires !(a <= b)
    ensures x in a && x !in b
  {
    x :| x in a && x !in b;
  }

  lemma ShrinkGap(t: set<int>, seen: set<int>, step: set<int>)
    requires !(step <= seen)
    requires step <= t
    ensures |t - (seen + step)| < |t - seen|
  {
    var x := Outside(step, seen);
    SubsetCard(t - (seen + step), (t - seen) - {x});
  }

  function DownEdges(db: Store): set<(int, int)> {
    set l | l in db.tree :: (l.parent, l.child)
  }

  function UpEdges(db: Store): set<(int, int)> {
    set l | l in db.tree :: (l.child, l.parent)
  }

  /** Every superset of `seen` closed under `edges` contains the reach, so
      `Reach` is the least such set. */
  lemma {:induction false} ReachLeast(edges: set<(int, int)>, seen: set<int>, bound: set<int>)
    requires seen <= bound && Successors(edges, bound) <= bound
    ensures Reach(edges, seen) <= bound
    decreases |Targets(edges) - seen|
  {
    var step := Successors(edges, seen);
    if !(step <= seen) {
      forall x | x in step
        ensures x in bound
      {
        var e :| e in edges && e.0 in seen && e.1 == x;
        assert x in Successors(edges, bound);
      }
      ShrinkGap(Targets(edges), seen, step);
      ReachLeast(edges, seen + step, bound);
    }
  }

  /** `below` holds every child of `id` and every child of its own members. */
  predicate ClosedBelow(db: Store, id: int, below: set<int>) {
    forall l :: l in Links(db) && (l.parent == id || l.parent in below) ==> l.child in below
  }

  /** `above` holds every parent of a node of `ids` and every parent of its
      own members. */
  predicate ClosedAbove(db: Store, ids: set<int>, above: set<int>) {
    forall l :: l in Links(db) && (l.child in ids || l.child in above) ==> l.parent in above
  }

  /** `get_children({id})`: every node reachable from `id` by one or more
      parent-to-child rows, i.e. the least set closed below `id`. */
  function Descendants(db: Store, id: int): (r: set<int>)
    ensures ClosedBelow(db, id, r)
    ensures forall below :: ClosedBelow(db, id, below) ==> r <= below
    ensures forall c :: c in r ==> exists l :: l in Links(db) && l.child == c
  {
    var e := DownEdges(db);
    var r := Reach(e, Successors(e, {id}));
    forall l | l in Links(db) && (l.parent == id || l.parent in r)
      ensures l.child in r
    {
      assert (l.parent, l.child) in e;
      if l.parent == id {
        assert l.child in Successors(e, {id});
      } else {
        assert l.child in Successors(e, r);
      }
    }
    forall below | ClosedBelow(db, id, below)
      ensures r <= below
    {
      forall x | x in Successors(e, {id}) + Successors(e, below)
        ensures x in below
      {
        var p :| p in e && (p.0 == id || p.0 in below) && p.1 == x;
        var l :| l in db.tree && (l.parent, l.child) == p;
      }
      ReachLeast(e, Successors(e, {id}), below);
    }
    forall c | c in r
      ensures exists l :: l in Links(db) && l.child == c
    {
      var x :| x in e && x.1 == c;
    }
    r
  }

  /** `get_parents(ids, find_all=True)`: every node reachable from `ids` by
      one or more child-to-parent rows, i.e. the least set closed above `ids`. */
  function Ancestors(db: Store, ids: set<int>): (r: set<int>)
    ensures ClosedAbove(db, ids, r)
    ensures forall above :: ClosedAbove(db, ids, above) ==> r <= above
    ensures forall p :: p in r ==> exists l :: l in Links(db) && l.parent == p
  {
    var e := UpEdges(db);
    var r := Reach(e, Successors(e, ids));
    forall l | l in Links(db) && (l.child in ids || l.child in r)
      ensures l.parent in r
    {
      assert (l.child, l.parent) in e;
      if l.child in ids {
        assert l.parent in Successors(e, ids);
      } else {
        assert l.parent in Successors(e, r);
      }
    }
    forall above | ClosedAbove(db, ids, above)
      ensures r <= above
    {
      forall x | x in Successors(e, ids) + Successors(e, above)
        ensures x in above
      {
        var p :| p in e && (p.0 in ids || p.0 in above) && p.1 == x;
        var l :| l in db.tree && (l.child, l.parent) == p;
      }
      ReachLeast(e, Successors(e, ids), above);
    }
    forall p | p in r
      ensures exists l :: l in Links(db) && l.parent == p
    {
      var x :| x in e && x.1 == p;
    }
    r
  }
}

=== FILE: text.dfy ===
/** The Python string operations the parsers rely on, over `seq<char>`:
    `str.strip` with and without a character set, `str.split` with an
    explicit separator, `str.lower`, `str.endswith` and `int(...)`. */
module Text {

  /** The ASCII characters `str.isspace` accepts (what `str.strip()` removes). */
  const Whitespace: set<char> :=
    {' ', '\t', '\n', '\r', '\U{000B}', '\U{000C}', '\U{001C}', '\U{001D}', '\U{001E}', '\U{001F}'}

  /** `s.lstrip(chars)`: drop leading characters that belong to `cs`. */
  function LStrip(s: string, cs: set<char>): (r: string)
    ensures |r| <= |s| && r == s[|s| - |r|..]
    ensures forall i :: 0 <= i < |s| - |r| ==> s[i] in cs
    ensures r == [] || r[0] !in cs
  {
    if |s| > 0 && s[0] in cs then LStrip(s[1..], cs) else s
  }

  /** `s.rstrip(chars)`: drop trailing characters that belong to `cs`. */
  function RStrip(s: string, cs: set<char>): (r: string)
    ensures |r| <= |s| && r == s[..|r|]
    ensures forall i :: |r| <= i < |s| ==> s[i] in cs
    ensures r == [] || r[|r| - 1] !in cs
  {
    if |s| > 0 && s[|s| - 1] in cs then RStrip(s[..|s| - 1], cs) else s
  }

  /** `s.strip(chars)`: a character-set strip from both ends. */
  function StripChars(s: string, cs: set<char>): (r: string)
    ensures |r| <= |s|
    ensures r == [] || (r[0] !in cs && r[|r| - 1] !in cs)
  {
    RStrip(LStrip(s, cs), cs)
  }

  /** `s.strip()` */
  function Strip(s: string): string {
    StripChars(s, Whitespace)
  }

  /** A stripped string is empty exactly when every character was whitespace. */
  lemma StripEmpty(s: string)
    ensures Strip(s) == [] <==> forall i :: 0 <= i < |s| ==> s[i] in Whitespace
  {
    var l := LStrip(s, Whitespace);
    if Strip(s) == [] {
      forall i | 0 <= i < |s|
        ensures s[i] in Whitespace
      {
        if i >= |s| - |l| {
          assert l[i - (|s| - |l|)] == s[i];
        }
      }
    }
  }

  /** The pieces joined back with `sep` between them (`sep.join(parts)`). */
  function Join(parts: seq<string>, sep: string): string
    requires |parts| > 0
  {
    if |parts| == 1 then parts[0] else parts[0] + sep + Join(parts[1..], sep)
  }

  /** `sub` occurs in `s` starting at index `k`. */
  predicate OccursAt(s: string, sub: string, k: int) {
    0 <= k && k + |sub| <= |s| && s[k..k + |sub|] == sub
  }

  /** `sub in s` for strings. */
  predicate Contains(s: string, sub: string) {
    exists k :: 0 <= k <= |s| && OccursAt(s, sub, k)
  }

  /** `s.split(sep)` for a non-empty separator: scan left to right and cut at
      every occurrence of `sep` that does not overlap an earlier one, so the
      pieces joined back give `s` and no piece contains `sep`. */
  function Split(s: string, sep: string): (r: seq<string>)
    requires |sep| > 0
    ensures |r| > 0
    ensures Join(r, sep) == s
    ensures forall i :: 0 <= i < |r| ==> !Contains(r[i], sep)
    ensures |sep| == 1 ==> forall i :: 0 <= i < |r| ==> sep[0] !in r[i]
    ensures forall i :: 0 <= i < |r| - 1 ==> !Contains(r[i] + sep[..|sep| - 1], sep)
    decreases |s|
  {
    if |s| < |sep| then
      assert forall k :: !OccursAt(s, sep, k);
      [s]
    else if s[..|sep|] == sep then
      var rest := Split(s[|sep|..], sep);
      assert Join([""] + rest, sep) == "" + sep + Join(rest, sep);
      assert s == s[..|sep|] + s[|sep|..];
      assert forall k :: !OccursAt("", sep, k);
      assert "" + sep[..|sep| - 1] == sep[..|sep| - 1];
      ShortClean(sep[..|sep| - 1], sep);
      [""] + rest
    else
      var rest := Split(s[1..], sep);
      var r := [[s[0]] + rest[0]] + rest[1..];
      JoinHead(rest, sep, s[0]);
      assert s == [s[0]] + s[1..];
      JoinPrefix(r, sep);
      HeadClean(s, sep, rest[0]);
      assert |rest| > 1 ==> !Contains(r[0] + sep[..|sep| - 1], sep) by {
        if |rest| > 1 {
          var piece := rest[0] + sep[..|sep| - 1];
          assert Join(rest, sep) == rest[0] + sep + Join(rest[1..], sep);
          assert [s[0]] + piece == s[..|piece| + 1];
          HeadClean(s, sep, piece);
          assert r[0] + sep[..|sep| - 1] == [s[0]] + piece;
        }
      }
      r
  }

  /** A string shorter than `sep` does not contain it. */
  lemma ShortClean(p: string, sep: string)
    requires |p| < |sep|
    ensures !Contains(p, sep)
  {
  }

  /** The first piece is a prefix of the join. */
  lemma JoinPrefix(parts: seq<string>, sep: string)
    requires |parts| > 0
    ensures |parts[0]| <= |Join(parts, sep)| && Join(parts, sep)[..|parts[0]|] == parts[0]
  {
  }

  /** A piece that starts `s`, after a first character at which `sep` does
      not start, contains `sep` only if the rest of the piece does. */
  lemma HeadClean(s: string, sep: string, piece: string)
    requires |sep| > 0 && |s| >= |sep| && s[..|sep|] != sep
    requires |piece| + 1 <= |s| && ([s[0]] + piece) == s[..|piece| + 1]
    requires !Contains(piece, sep)
    ensures !Contains([s[0]] + piece, sep)
  {
    var p := [s[0]] + piece;
    forall k
      ensures !OccursAt(p, sep, k)
    {
      if k == 0 && |sep| <= |p| {
        assert p[..|sep|] == s[..|sep|];
      } else if 0 < k && k + |sep| <= |p| {
        assert p[k..k + |sep|] == piece[k - 1..k - 1 + |sep|];
        assert !OccursAt(piece, sep, k - 1);
      }
    }
  }

  /** Prepending a character to the first piece prepends it to the join. */
  lemma JoinHead(parts: seq<string>, sep: string, c: char)
    requires |parts| > 0
    ensures Join([[c] + parts[0]] + parts[1..], sep) == [c] + Join(parts, sep)
  {
    var q := [[c] + parts[0]] + parts[1..];
    if |parts| > 1 {
      assert q[1..] == parts[1..];
    }
  }

  /** `s.endswith(suffix)` */
  predicate EndsWith(s: string, suffix: string) {
    |suffix| <= |s| && s[|s| - |suffix|..] == suffix
  }

  function LowerChar(c: char): char {
    if 'A' <= c <= 'Z' then (c as int + 32) as char else c
  }

  /** `s.lower()` on ASCII letters. */
  function Lower(s: string): (r: string)
    ensures |r| == |s|
  {
    seq(|s|, i requires 0 <= i < |s| => LowerChar(s[i]))
  }

  predicate IsDigit(c: char) {
    '0' <= c <= '9'
  }

  predicate AllDigits(s: string) {
    forall i :: 0 <= i < |s| ==> IsDigit(s[i])
  }

  /** Whether `int(s)` succeeds on an already stripped string: an optional
      sign followed by one or more decimal digits. */
  predicate IsInt(s: string) {
    if |s| > 0 && (s[0] == '+' || s[0] == '-') then |s| > 1 && AllDigits(s[1..])
    else |s| > 0 && AllDigits(s)
  }

  function DigitsValue(s: string): (n: nat)
    requires AllDigits(s)
  {
    if |s| == 0 then 0
    else DigitsValue(s[..|s| - 1]) * 10 + (s[|s| - 1] as int - '0' as int)
  }

  /** The value `int(s)` returns when `IsInt(s)`. */
  function ParseInt(s: string): int
    requires IsInt(s)
  {
    if s[0] == '-' then -(DigitsValue(s[1..]) as int)
    else if s[0] == '+' then DigitsValue(s[1..])
    else DigitsValue(s)
  }
}
